=== FILE: README.md ===
# convertPDF in Dafny

A model of the Excel-to-PDF converter for RPA schedulers, with proofs about it. The model covers:

- the converter in `impresionPDF_improved.py`:
  - the `RPAConfig` settings: built-in defaults, a JSON override file merged over them, and dotted-path lookup;
  - the orphaned-Excel cleanup;
  - the page setup of every worksheet;
  - `convert_excel_to_pdf`:
    - validation;
    - the output path;
    - the disk-space guard;
    - lazy initialisation;
    - the open loop with retries;
    - export;
    - the handlers that turn each failure into `sys.exit` with a configured code;
    - the `finally` clause that closes an opened workbook;
  - `convert_batch`, `close` and `__exit__`;
- the batch drivers in `batch_converter.py`: `process_folder`, `process_file_list` and `main`, which covers command-line dispatch, the summary counts and the report.

Everything the converter gets from outside is an input. That covers the file system, psutil, the Excel COM server, `glob`, `json.load`, `os.path.abspath` and the report write. Each input says what the outside world answered, or which exception it raised. The model is purely functional: one conversion is a function from the settings, the converter's two flags (`self.excel`, `self.initialized`) and that input to the outcome and the new flags.

Modules, one per concern of the source:

- `PyValues`: Python values.
  - JSON documents.
  - Truthiness.
  - The exception classes the handlers tell apart.
- `Text`: string operations.
  - `str.lower` and `in`.
  - `str.split`, and `str.join` as its partner.
- `Config`: `RPAConfig`.
  - The defaults.
  - `dict.update` with the override document.
  - `get`.
  - The settings the converter reads, with their call-site fallbacks.
- `ProcessCleanup`: `kill_orphaned_excel_processes`.
- `PageSetup`: `configure_print_settings`.
- `ExitCodes`: the four handlers and what `sys.exit` makes of a code.
- `Messages`: the fixed exception texts.
- `Paths`: the `pathlib` and `ntpath` operations used.
  - `name`, `suffix`, `stem` and `with_suffix`.
  - Joining paths.
- `OpenRetry`: the `Workbooks.Open` retry loop.
- `Session`: `initialize_excel`, `close` and `__exit__`.
- `Converter`: `convert_excel_to_pdf`.
- `Results`: the results dictionary, with Python's key identity and insertion order, and the summary counts.
- `Batch`: the rest of the batch path.
  - `convert_batch`, `process_folder` and `process_file_list`.
  - The command line of `batch_converter.py`.

Where the code points two ways, the model follows what it does:

- **Failures in the batch loops.** Both batch loops have an `except Exception` handler that records `ERROR: ...` for a failed file and goes on (impresionPDF_improved.py:320-322 and batch_converter.py:53-55). Yet every handler of `convert_excel_to_pdf` calls `sys.exit`, and the `SystemExit` it raises is not an `Exception`. So those handlers never see a failed conversion, and the first failing file ends the whole batch with that file's exit code. See "## Findings". The batch functions take a `FailureMode`:
  - `ExitsProcess` is the code as written;
  - `RecordsError` is what the handlers were written for.
- **The list file.** The docstring of `process_file_list` calls it a JSON file holding a list of files (batch_converter.py:64). The code iterates whatever `json.load` returned:
  - a string yields its characters;
  - an object yields its keys;
  - anything else raises `TypeError`, which escapes to `main`'s handler.
- **Permission failures.** A permission failure found by validation is reported as file-not-found, with code 1. The permission handler, code 4, is only reached by a `PermissionError` raised later.

## Model

| member | source | states |
|---|---|---|
| Config.Defaults | impresionPDF_improved.py:52-82 | The built-in settings have exactly the namespaces excel, pdf, rpa and cleanup. |
| Config.Get | impresionPDF_improved.py:94-102 | A path without a dot is a plain lookup among the namespaces, with the default for a missing one. A path whose first segment names no namespace gives the default. |
| Config.UpdatePairs | impresionPDF_improved.py:89 | Key/value pairs add or replace namespaces and never remove one. |
| Config.LastPairWins | impresionPDF_improved.py:89 | Of several string pairs, the last pair for a key decides that namespace. |
| Config.UnnamedKeepsValue | impresionPDF_improved.py:89 | A namespace no pair names keeps its value. |
| Config.Update | impresionPDF_improved.py:89 | An override object replaces each top-level namespace it names, whole. Every namespace it does not name is kept. A scalar document changes nothing. |
| Config.Load | impresionPDF_improved.py:84-92 | With no usable file the settings are the defaults. With an object, named namespaces come from the file and all others come from the defaults. |
| Config.ArrayDocumentAppliesPairsBeforeFailing | impresionPDF_improved.py:86-92 | For any settings and any array document: the string pairs before the first bad element are applied in order, and nothing after it is. The `except` does not undo the pairs already applied. |
| Config.ResolveAppend | impresionPDF_improved.py:95-102 | Walking a concatenated key path is walking the first part, then the second from where the first ended. Failure anywhere is failure. |
| Config.GetDotted | impresionPDF_improved.py:94-102 | `get("ns.rest", d)` is the lookup of `rest` inside namespace `ns`, or `d` when there is no such namespace. |
| Config.GetDependsOnNamespace | impresionPDF_improved.py:94-102 | A lookup depends only on the namespace its first segment names. |
| Config.OverrideReplacesNamespace | impresionPDF_improved.py:89-102 | After a merge, a path into a namespace the override names reads from the override alone. |
| Config.OverrideKeepsOtherNamespaces | impresionPDF_improved.py:89-102 | After a merge, a path into a namespace the override does not name reads exactly as before. |
| Config.NestedOverrideDropsSiblings | impresionPDF_improved.py:89-102 | Overriding only `pdf.fit_to_width` makes every other `pdf` key fall back to the caller's default. |
| Config.ReadIsGet | impresionPDF_improved.py:94-102 | Reading a setting segment by segment equals `get` on its dotted text, when no segment contains a dot. |
| Config.CleanupAndExcelFallbacks | impresionPDF_improved.py:52-82 | The call-site fallbacks of the cleanup and excel settings equal the built-in defaults. |
| Config.PdfAndRpaFallbacks | impresionPDF_improved.py:52-82 | The call-site fallbacks of the pdf settings and of the log level equal the built-in defaults. |
| Config.ExitCodeFallbacks | impresionPDF_improved.py:67-76 | The built-in exit codes are 0, 1, 3, 4 and 99. |
| Text.Split | impresionPDF_improved.py:95 | `split('.')` gives at least one piece, and no piece contains the separator. |
| Text.JoinSplit | impresionPDF_improved.py:95 | Joining the pieces of a split gives back the text. |
| Text.SplitJoin | impresionPDF_improved.py:95 | Splitting joined separator-free pieces gives back the pieces. |
| Text.SplitAround | impresionPDF_improved.py:95 | Splitting `a.b` is splitting `a` followed by splitting `b`. |
| Text.NoTiNoTimeout | impresionPDF_improved.py:292 | Text in which no `t` is followed by `i` cannot contain "timeout". |
| ProcessCleanup.SelectExcel | impresionPDF_improved.py:114-115 | The selected processes are exactly those with a non-empty name containing "excel" in any case. |
| ProcessCleanup.SelectExcelSingle | impresionPDF_improved.py:114-115 | A single process is selected exactly when it is Excel. |
| ProcessCleanup.SelectExcelIsFilter | impresionPDF_improved.py:114-115 | Selecting from two lists joined is selecting from each in turn, so enumeration order and repeats are kept. |
| ProcessCleanup.SliceFrom | impresionPDF_improved.py:121 | Python's `xs[n:]`: a suffix for `0 <= n <= len`, counted from the end for negative `n`, and empty past the end. |
| ProcessCleanup.CapIndex | impresionPDF_improved.py:117-121 | A cap that is an int or a bool (as 0 or 1) both compares and slices. Any other value leaves nothing to kill. |
| ProcessCleanup.Victims | impresionPDF_improved.py:117-121 | The processes to kill are a tail of the Excel processes, in enumeration order. There are some only when the count exceeds an int or bool cap. |
| ProcessCleanup.KeepKilled | impresionPDF_improved.py:121-126 | The killed processes are exactly the attempted ones whose kill succeeded. |
| ProcessCleanup.Cleanup | impresionPDF_improved.py:112-128 | The attempts are the victims for the configured cap. The kills are the attempts that succeeded. |
| ProcessCleanup.VictimsAreExcel | impresionPDF_improved.py:114-121 | Only running Excel processes are ever attempted. |
| ProcessCleanup.NoKillsWithinCap | impresionPDF_improved.py:117-119 | Nothing is attempted unless the Excel count exceeds a cap that is an int or a bool. |
| ProcessCleanup.KillsExactlyTheExcess | impresionPDF_improved.py:119-121 | Over a non-negative cap, the processes from position `cap` on are attempted, and the first `cap` survive. |
| ProcessCleanup.NegativeCapCountsFromTheEnd | impresionPDF_improved.py:121 | A negative cap attempts only the last `-cap` Excel processes. |
| ProcessCleanup.AttemptsIgnoreKillFailures | impresionPDF_improved.py:122-126 | Failing kills never change what is attempted. |
| PageSetup.Orientation | impresionPDF_improved.py:193-200 | Under exactly "auto": landscape iff the used range is wider than tall or has more than 10 columns. Otherwise landscape iff the text lower-cases to "landscape". A non-string raises the AttributeError naming its type. |
| PageSetup.Configure | impresionPDF_improved.py:189-225 | A sheet's layout has: the orientation rule; zoom off; fit-to-width iff the setting is truthy; four equal margins converted from `margins_cm`; 0.5 cm header and footer; horizontal centring only; the configured quality; and the used range as print area when none is set. It fails iff the orientation or a conversion fails. |
| PageSetup.ConfigureAll | impresionPDF_improved.py:266-269 | Every sheet is set up in order, and all layouts are produced iff no sheet fails. A failure reported is some sheet's setup error. |
| PageSetup.ConfigureErrorIgnoresSheet | impresionPDF_improved.py:189-225 | Whether and how a sheet's setup fails does not depend on the sheet. |
| PageSetup.ConfigureAllReportsFirstFailure | impresionPDF_improved.py:266-269 | A failure reported is the first sheet's setup error, and every sheet would fail the same way. |
| PageSetup.DefaultsChooseByShape | impresionPDF_improved.py:193-198 | With the defaults, a sheet is landscape iff it is wider than tall or has more than 10 used columns. |
| PageSetup.AutoIsCaseSensitive | impresionPDF_improved.py:194-200 | "Auto" is not automatic: it always gives portrait. |
| ExitCodes.Classify | impresionPDF_improved.py:285-296 | The handler chosen is file-not-found iff the exception is FileNotFoundError, and permission iff it is PermissionError. Any other exception goes to timeout iff its lower-cased text contains "timeout", and to general otherwise. |
| ExitCodes.ExitStatus | impresionPDF_improved.py:287 | `sys.exit(code)`: None gives 0, an int gives itself, a bool gives 0 or 1, and any other value gives 1. |
| ExitCodes.DefaultStatuses | impresionPDF_improved.py:285-296 | With the defaults the handlers end with 1, 4, 3 and 99. |
| ExitCodes.TimeoutByText | impresionPDF_improved.py:291-294 | Any text containing "TimeOut" reaches the timeout handler. |
| ExitCodes.NotFoundBeatsTimeoutText | impresionPDF_improved.py:285-287 | A FileNotFoundError with any text, even one mentioning a timeout, goes to the file-not-found handler and exits with the configured `file_not_found` code. |
| ExitCodes.GeneralWithoutTi | impresionPDF_improved.py:291-296 | Text without a `ti` after lower-casing reaches the general handler. |
| Messages.LowDiskHasNoTi | impresionPDF_improved.py:243 | The low-disk text cannot be mistaken for a timeout. |
| Messages.NoWorkbookHasNoTi | impresionPDF_improved.py:264 | The missing-workbook AttributeError text cannot be mistaken for a timeout. |
| Paths.BaseName | impresionPDF_improved.py:238 | The final component is separator-free, ends the path, and is preceded by a separator unless it is the whole path. |
| Paths.LastDotIsLast | impresionPDF_improved.py:311 | No dot follows the position `rfind('.')` reports. |
| Paths.StemSuffix | impresionPDF_improved.py:311 | Stem and suffix concatenate to the name. A non-empty suffix starts with a dot after a non-empty stem. |
| Paths.DirPart | impresionPDF_improved.py:238 | The directory part followed by the final component is the path. |
| Paths.AsPosix | impresionPDF_improved.py:238 | No backslash is left. Every other character stays where it was, and the only change is a backslash becoming a forward slash. |
| Paths.AsPosixIdempotent | impresionPDF_improved.py:238 | Converting a path a second time changes nothing. |
| Paths.PdfNameParts | impresionPDF_improved.py:311 | The output name is separator-free, has suffix ".pdf", and keeps the input's stem. |
| Paths.SplitAtName | impresionPDF_improved.py:238 | A directory part and a separator-free name split back into exactly those parts. |
| Paths.WithPdfSuffix | impresionPDF_improved.py:238 | `with_suffix` raises iff the path has an empty name. Otherwise the result keeps the directory part and is longer than it. |
| Paths.WithPdfSuffixSpec | impresionPDF_improved.py:238 | `with_suffix('.pdf')` keeps the directory and the stem, and the result's suffix is ".pdf". |
| Paths.JoinPath | impresionPDF_improved.py:312 | The joined path starts with the directory and ends with the name. A separator is inserted only between a non-empty directory and a name, when the directory does not already end in one. |
| Paths.JoinPathBaseName | impresionPDF_improved.py:312 | The joined path's final component is the joined name. |
| Paths.JoinPathInjective | impresionPDF_improved.py:312 | Joining different names to one directory gives different paths. |
| OpenRetry.AttemptCount | impresionPDF_improved.py:250-253 | `range` takes an int as itself. Any value that is neither int nor bool raises the TypeError for a non-integer. |
| OpenRetry.SleepError | impresionPDF_improved.py:260 | `time.sleep(delay)`: no error iff the delay is a bool, or a non-negative number whose nanoseconds fit in 64 bits. A negative delay that fits raises "must be non-negative". A delay that does not fit raises OverflowError. A non-number raises TypeError. |
| OpenRetry.From | impresionPDF_improved.py:253-262 | Loop from attempt `i` on, given what the sleep raises: <br>• between `i + 1` and `n` calls, one sleep fewer than calls; <br>• every call before the last failed; <br>• ends opened iff the last call succeeded; <br>• when the sleep does not raise, a raise comes from the last allowed call; <br>• an early stop is a success or the sleep's error. |
| OpenRetry.Retry | impresionPDF_improved.py:253-262 | The whole loop: <br>• no workbook iff the count is at most 0; <br>• otherwise 1 to `n` calls with one sleep fewer; <br>• opened iff the last call succeeded; <br>• with a valid delay, a raise re-raises call `n`'s failure; <br>• an early stop is a success or the error `time.sleep` raises for the delay. |
| OpenRetry.StopsAtFirstSuccess | impresionPDF_improved.py:253-256 | With a sleep that does not raise, the loop stops at the first successful attempt, after exactly that many calls. |
| OpenRetry.ReRaisesLastFailure | impresionPDF_improved.py:258-262 | With a sleep that does not raise and every attempt failing, all `n` calls are made with `n - 1` sleeps, and the last failure is re-raised. |
| OpenRetry.BadDelayEndsAfterOneCall | impresionPDF_improved.py:258-260 | A delay `time.sleep` rejects ends a multi-attempt loop after its first failure, with the sleep's error. |
| Session.Initialize | impresionPDF_improved.py:146-165 | Cleanup runs iff the setting is truthy, with the configured cap. Success leaves the converter with an application and initialised. Each failure re-raises its exception. The application object is kept iff it was stored before the failure. |
| Session.Close | impresionPDF_improved.py:326-336 | Close does nothing unless there is an application and the converter is initialised. A full close gives a fresh converter. A failed `CoUninitialize` drops the application but leaves the converter marked initialised. A failure in `ScreenUpdating` or `Quit` changes nothing. Close never sets a flag. |
| Session.SecondCloseDoesNothing | impresionPDF_improved.py:326-333 | A close that dropped the application cannot be repeated. |
| Session.InitializeThenCloseIsFresh | impresionPDF_improved.py:146-165 | A successful initialisation then a successful close is back to a fresh converter. |
| Session.FailedSetupIsNotClosed | impresionPDF_improved.py:155-165 | When setting application properties fails, the application object stays alive and close leaves it running. |
| Converter.Opener | impresionPDF_improved.py:255 | With an application, each attempt gets its answer. Without one, every attempt raises the AttributeError for the missing `Workbooks`. |
| Converter.Target | impresionPDF_improved.py:237-239 | The output is the requested path made absolute. Without one, it is the input with suffix ".pdf", made absolute. An empty name raises ValueError. |
| Converter.DiskError | impresionPDF_improved.py:241-243 | The guard raises iff there are fewer than 100 MiB free. A failing probe raises its own exception. |
| Converter.Convert | impresionPDF_improved.py:227-303 | A conversion run: <br>• every failure exits with the code of its handler; <br>• a non-path input fails first; <br>• a failed validation exits as file-not-found and touches nothing; <br>• initialisation happens iff every check passed and the converter was not initialised; <br>• the workbook is closed iff it was opened; <br>• a returned path is the derived target, after every sheet was set up and the export was verified. |
| Converter.FailedUninitializeBreaksLaterConversions | impresionPDF_improved.py:247-262 | After a close whose `CoUninitialize` raised, a later conversion that passes its checks skips initialisation, every open attempt raises the missing-application error, and it exits without closing a workbook. |
| Converter.SuccessReturnsTarget | impresionPDF_improved.py:227-283 | When every check passes, the converter is or becomes ready, the first open succeeds, every sheet is set up and the file is written, the conversion returns its target after one open, closes the workbook and stays live. |
| Converter.OpenAndExport | impresionPDF_improved.py:250-283 | The open loop runs with the configured count and delay, and a bad count raises before any call. Success requires an application, all sheets set up, no export error and a written file. |
| Converter.ValidationFailureExitsWithOne | impresionPDF_improved.py:234-235 | An unreadable file, or an unwritable folder, exits with status 1 under the defaults. |
| Converter.LowDiskIsGeneralError | impresionPDF_improved.py:241-248 | Low disk space is a general error, and Excel is never started. |
| Converter.NoAttemptsIsGeneralError | impresionPDF_improved.py:253-264 | A non-positive attempt count opens nothing and fails reading `wb.Name` as a general error, and nothing is closed. |
| Converter.DefaultsOpenAtMostThreeTimes | impresionPDF_improved.py:250-262 | Under the defaults there are at most 3 open calls and 2 sleeps. |
| Converter.DefaultOutputReplacesSuffix | impresionPDF_improved.py:237-239 | Without a requested path, and for an input with a non-empty name, the target is in the input's folder, with the input's stem and suffix ".pdf". A successful conversion returns that target. |
| Results.KeyOf | impresionPDF_improved.py:317 | A dictionary key is unhashable iff it is a list or a dict. |
| Results.Find | impresionPDF_improved.py:317 | The position holding a key, or -1 iff no entry holds it. |
| Results.Put | impresionPDF_improved.py:317 | The dictionary grows by one exactly when the key is new, and otherwise keeps its size. |
| Results.PutKeepsOrder | impresionPDF_improved.py:317 | Storing keeps every existing key in its place and every entry under another key unchanged. A new key's entry goes last. |
| Results.Lookup | impresionPDF_improved.py:317 | A lookup finds a value iff the key is stored. |
| Results.PutKeepsKeysUnique | impresionPDF_improved.py:317 | Storing keeps keys unique. |
| Results.PutThenLookup | impresionPDF_improved.py:317 | The value stored is the value looked up under that key, in any dictionary. |
| Results.PutLeavesOtherKeys | impresionPDF_improved.py:317 | Storing leaves every other key's value unchanged. |
| Results.CountOk | batch_converter.py:108 | The successful count never exceeds the total. |
| Results.Summarize | batch_converter.py:107-113 | Every entry is counted once: successful plus failed is the total, which is the entry count. The failed count is the number of values starting with "ERROR", so it is never negative. |
| Results.EveryValueCountedOnce | batch_converter.py:108-113 | Each value is either a success or an "ERROR", never both. |
| Batch.ListItem | impresionPDF_improved.py:310-314 | An entry is its own key and input. Without an output folder no path is requested. With one, a string entry requests its stem plus ".pdf" in that folder, and any other entry fails building the path. |
| Batch.Loop | impresionPDF_improved.py:305-324 | At most one step per entry, and one per entry when the loop completes. No step before the last aborted, and none at all when the loop completes. An abort carries the code of its last step. |
| Batch.LoopStep | impresionPDF_improved.py:308-322 | Entry `i`'s step comes first. The loop goes on from the next entry iff that step neither aborts nor has an unhashable key. |
| Batch.AsWrittenCompletesAsRecorded | impresionPDF_improved.py:308-324 | As written, a loop completes iff the corrected loop completes with no conversion exiting, and the two runs are then the same. |
| Batch.ConvertsEveryEntry | impresionPDF_improved.py:310-316 | When no entry's output path fails, every step is a conversion. |
| Batch.LoopStores | impresionPDF_improved.py:308-322 | Recording failures over hashable keys completes every entry. The dictionary stores each step's value in order. |
| Batch.StoreFresh | impresionPDF_improved.py:317-322 | Storing pairwise-different new keys appends one entry per step, in order. |
| Batch.RecordsEveryItem | impresionPDF_improved.py:305-324 | Recording failures over pairwise-different keys yields one entry per item, in order, holding that step's result or "ERROR: " plus the failure text. |
| Batch.ErrorsAreFailures | impresionPDF_improved.py:317-322 | The entries counted as errors are exactly the failed steps, when no returned path starts with "ERROR". |
| Batch.GivenFolder | batch_converter.py:74 | An output folder is used iff one was given and it is not empty, and then it is used as given. |
| Batch.OutputFolder | batch_converter.py:36-39 | A given output folder is used as is. Otherwise the output goes to "pdf_output" inside the input folder. |
| Batch.FolderItem | batch_converter.py:48-50 | A folder entry is keyed by its joined path, and requests its stem plus ".pdf" in the output folder. |
| Batch.ProcessFolder | batch_converter.py:12-57 | A missing or empty folder gives `{}` and creates nothing. Otherwise the output folder is created first, and a `mkdir` failure escapes. Then every match is converted in order and the converter is closed. |
| Batch.FolderPathsDistinct | batch_converter.py:46-50 | Different file names in a folder are different result keys. |
| Batch.FolderKeysAreFresh | batch_converter.py:46-50 | A folder's keys are hashable and pairwise different. |
| Batch.AsWrittenFolderRecordsEveryFile | batch_converter.py:46-57 | As written, a folder run that completes returns one entry per file, keyed by its path, in listing order, each holding the PDF path its conversion returned. |
| Batch.AsWrittenFolderIsCorrected | batch_converter.py:46-57 | As written, a folder run that completes is the corrected run, and every conversion in it returned a path. |
| Batch.CorrectedFolderRecordsEveryFile | batch_converter.py:46-57 | Corrected, a folder run records one entry per file, keyed by its path and in listing order. |
| Batch.SummaryCountsFailedSteps | batch_converter.py:107-113 | Corrected, the summary's failed count is the number of failed files. |
| Batch.AsWrittenFailureAbortsFolder | batch_converter.py:46-55 | As written, with the default codes, an unreadable first file ends the folder run with code 1 after one conversion. |
| Batch.ConvertBatch | impresionPDF_improved.py:305-324 | At most one step per list entry, and one per entry when the batch ends normally, with no step that aborts. An aborted batch ends on a step that aborts. |
| Batch.AsWrittenBatchRecordsEveryEntry | impresionPDF_improved.py:305-324 | As written, a batch that completes returns one entry per input, keyed by the input, in list order. Each entry holds the returned PDF path, or "ERROR: " and the text of the failure to build the output path. |
| Batch.CorrectedBatchRecordsEveryEntry | impresionPDF_improved.py:305-324 | Corrected, `convert_batch` records one entry per list element, in list order. |
| Batch.OutputFolderNaming | impresionPDF_improved.py:310-314 | With an output folder, a string entry is written there as its stem plus ".pdf". A non-string entry fails building the path and is never converted. |
| Batch.Iterate | impresionPDF_improved.py:308 | Iterating a list gives its elements, a string gives its characters, and an object gives its keys in file order. Iteration fails iff the document is none of these. |
| Batch.IterateObjectGivesItsKeys | impresionPDF_improved.py:308 | Iterating an object, given its keys as `json.load` read them, yields exactly its keys, each once. |
| Batch.ProcessFileList | batch_converter.py:59-79 | An unloadable list gives `{}`. A truthy output folder is created before the converter starts. The entries then go to `convert_batch`, and the converter is closed. |
| Batch.Dispatch | batch_converter.py:83-104 | Usage iff there is no argument. List mode iff the first argument is "--list" and a path follows. Folder mode otherwise. Each mode gets its positional arguments. |
| Batch.BareListIsAFolder | batch_converter.py:92-102 | A lone "--list" is taken as a folder name. |
| Batch.CorrectedListRecordsEveryEntry | batch_converter.py:59-79 | Corrected, a list run records one entry per list element, in list order, after creating the given output folder. |
| Batch.Finish | batch_converter.py:106-124 | A summary is logged iff the batch completed. The status is 0 iff the batch completed and the report was written, or a conversion's `sys.exit` carried status 0. |
| Batch.Main | batch_converter.py:81-124 | Usage returns 0. A completed batch logs its summary and exits with 0 iff the report was written. A conversion's SystemExit passes through with its status. Any other escaping exception exits with 1. |
| Batch.MissingFolderReportsZeros | batch_converter.py:104-120 | A missing folder ends normally, with an all-zero summary and status 0. |
| Batch.CorrectedCommandCountsFailures | batch_converter.py:104-120 | Corrected, a folder command always completes: its summary counts every file, the failed count is the number of failed files, and the status is 0 iff the report was written. |
| Batch.AsWrittenFailureEndsCommand | batch_converter.py:104-124 | As written, one unreadable file ends a folder command with status 1 and no summary. |

## Left out

- Logging, `print`, timing and file sizes (impresionPDF_improved.py:18-44, 245, 277-281): effects only, no decision depends on them.
- `rpa.log_level` and the module-level logger set-up (impresionPDF_improved.py:104-105): `config = RPAConfig()` runs first, then `getattr(logging, ...)` raises for a level that is not the name of a `logging` attribute, or for a non-string. Importing the module then fails, so every run of either script fails before any conversion. The model assumes a valid level.
- `excel.timeout_seconds`, `optimize_orientation`, the `TimeoutError` class, `signal` and `threading`: the code never uses them. Timeouts are detected only by the text match that `ExitCodes.Classify` models.
- The effects of `excel.visible` and `excel.display_alerts`: they are COM property writes. A failing write is modelled as `SetupRaises`.
- What the COM server does with the layout values. For example, it may reject `PrintQuality` or a `FitToPagesWide` of `False`. A rejection is one more exception in the export input, or in `toPoints`. `toPoints` is one input for the whole workbook, so a failing conversion fails every sheet alike.
- The process-killing mechanism and `psutil` enumeration errors: the process list and each kill's success are inputs.
- `pathlib` normalisation (`Path("a/")`, `..`, drive letters, UNC paths) and what `abspath` does: `abspath` is an opaque function input. `glob` matching of `*.xlsx` is an input list of names.
- Object elements inside an array-shaped override document: Python would use the object's keys in file order, which the unordered `JObj` map cannot express. `Config.UpdatePairs` stops the update at such an element.
- NaN and ±Infinity: the JSON reals in the model cannot hold them, though Python's `json.load` accepts them. Their effects are therefore not modelled: `time.sleep` raises ValueError for NaN and OverflowError for infinity, `len(...) > max_processes` is false for NaN and for +Infinity, and NaN or infinite margins are passed to the COM server.
- The key order of a top-level object in the list file is an input, because the model's JSON objects are unordered maps. The drivers do not require that input to list the object's keys; `Batch.IterateObjectGivesItsKeys` states what iteration yields when it does.
- The single-file `main` of impresionPDF_improved.py (lines 344-368): it is not a batch entry point.
- `time` is imported only under `if __name__ == "__main__"` in batch_converter.py, so `main` fails at the report step when imported. The model assumes the script is run.
- Exact exception texts come from Python and the COM server. The model uses Python's wording for the TypeErrors and ValueErrors it raises itself. Only "timeout" in a text matters to any decision.
- ExitCodes.ExitStatus: an int outside the C `int` range is not modelled as Python's conversion would treat it, and the operating system's truncation of the status to 8 bits is not modelled either. Both depend on the Python version and the platform.
- OpenRetry.SleepError: the float bound is compared exactly, so the rounding of `delay * 1e9` to a double and platform limits on how long a sleep may be are not modelled.
- Batch.ErrorsAreFailures: assumes no returned path starts with "ERROR". Such a path would be counted as a failure by the summary.
- Session.Initialize: the cleanup's own failure (any exception inside `kill_orphaned_excel_processes`) is logged and swallowed by the source, so it is not modelled as an outcome.

## Findings

| source | as written | input that shows it | evidently intended | confidence | as-written member | corrected member |
|---|---|---|---|---|---|---|
| impresionPDF_improved.py:285-296 | Every handler ends in `sys.exit`. Its `SystemExit` is not an `Exception`, so the `except Exception` in `convert_batch` (line 320) and in `process_folder` (batch_converter.py:53) never catches a failed file. The first failure ends the batch and the process with that file's code: no summary and no report. | A folder with two `.xlsx` files where the first cannot be read: the run exits with status 1 after one conversion, and the second file is never converted. | A failed file is recorded as "ERROR: " plus the failure text, and the loop goes on. | high, not executed | Batch.AsWrittenFailureAbortsFolder | Batch.CorrectedFolderRecordsEveryFile |
| batch_converter.py:46-57 | The same abort reaches `main`, which lets `SystemExit` through, so the batch summary is never logged. | The same folder run from the command line: status 1, no summary. | The summary counts the failed files and the report is written. | high, not executed | Batch.AsWrittenFailureEndsCommand | Batch.CorrectedCommandCountsFailures |

=== FILE: batch.dfy ===
/** The batch drivers: `convert_batch`, `process_folder`,
    `process_file_list` and the command line of `batch_converter.py`.
    Folder listings, directory creation, the list file, the report write
    and each file's conversion environment are inputs.

    A failed conversion ends in `sys.exit`, whose SystemExit is not an
    `Exception`: the per-file handlers never see it and, as written, the
    first failure ends the whole batch with that conversion's exit code.
    `FailureMode` selects between that behaviour (`ExitsProcess`) and the
    evidently intended one (`RecordsError`), where the failure is stored as
    "ERROR: ..." and the loop goes on. */
module Batch {
  import opened PyValues
  import Config
  import Paths
  import Session
  import Converter
  import Results
  import ExitCodes

  datatype FailureMode = ExitsProcess | RecordsError

  /** One entry of a batch: the dictionary key, the value handed to the
      converter, the output path requested, and the exception building that
      path raised, if any. */
  datatype Item = Item(key: Json, input: Json, requested: Option<string>, pathError: Option<Exc>)

  /** `convert_batch`'s entry for `entry`: with a truthy output folder the
      output is that folder joined to the entry's stem plus ".pdf" (and a
      non-path entry fails while building it); otherwise the converter
      chooses. */
  function ListItem(entry: Json, outDir: Option<string>): (it: Item)
    ensures it.key == entry && it.input == entry
    ensures outDir.None? ==> it.requested.None? && it.pathError.None?
    ensures outDir.Some? && entry.JStr? ==>
      it.requested == Some(Paths.JoinPath(outDir.value, Paths.PdfName(entry.s))) && it.pathError.None?
    ensures outDir.Some? && !entry.JStr? ==> it.pathError == Some(Converter.PathTypeError(entry))
  {
    match outDir
    case None => Item(entry, entry, None, None)
    case Some(d) =>
      if entry.JStr? then Item(entry, entry, Some(Paths.JoinPath(d, Paths.PdfName(entry.s))), None)
      else Item(entry, entry, None, Some(Converter.PathTypeError(entry)))
  }

  /** `process_folder`'s entry for a matched file name: keyed and converted
      as the path inside the folder, written as `<stem>.pdf` in the output
      folder. */
  function FolderItem(folder: string, outDir: string, name: string): (it: Item)
    ensures it.key == JStr(Paths.JoinPath(folder, name)) && it.input == it.key
    ensures it.requested == Some(Paths.JoinPath(outDir, Paths.PdfName(name))) && it.pathError.None?
  {
    var path := Paths.JoinPath(folder, name);
    Item(JStr(path), JStr(path), Some(Paths.JoinPath(outDir, Paths.PdfName(name))), None)
  }

  /** What happened to one entry: it was converted with this outcome, or
      building its output path raised. */
  datatype Step = Converted(outcome: Converter.Outcome) | PathFailed(e: Exc)

  predicate Failed(step: Step)
  {
    !(step.Converted? && step.outcome.Returned?)
  }

  /** The value the loop stores for a step: the returned path, or "ERROR: "
      and the exception's text. */
  function Recorded(step: Step): string
  {
    match step
    case Converted(Returned(pdf)) => pdf
    case Converted(Exited(_, cause)) => "ERROR: " + cause.msg
    case PathFailed(e) => "ERROR: " + e.msg
  }

  /** How a batch loop ends: with its dictionary, with SystemExit carrying
      an exit code, or with another exception escaping. */
  datatype LoopEnd = Completed(results: Results.Dict) | Aborted(code: Json) | Escaped(e: Exc)

  /** A batch loop: how it ended, the converter's flags, and one step per
      entry reached. */
  datatype LoopRun = LoopRun(end: LoopEnd, session: Session.Session, steps: seq<Step>)

  /** One entry's step and the converter's flags after it. */
  datatype Stepped = Stepped(step: Step, session: Session.Session)

  /** Build the output path, then convert; a path failure converts nothing. */
  function StepOf(cfg: Config.Namespaces, s: Session.Session, item: Item, env: Converter.FileEnv,
                  absPath: string -> string): (r: Stepped)
    ensures item.pathError.Some? ==> r == Stepped(PathFailed(item.pathError.value), s)
    ensures item.pathError.None? ==>
      var run := Converter.Convert(cfg, s, item.input, item.requested, env, absPath);
      r == Stepped(Converted(run.outcome), run.session)
  {
    if item.pathError.Some? then Stepped(PathFailed(item.pathError.value), s)
    else
      var run := Converter.Convert(cfg, s, item.input, item.requested, env, absPath);
      Stepped(Converted(run.outcome), run.session)
  }

  /** Whether a step ends the loop by SystemExit under `mode`. */
  predicate Aborts(mode: FailureMode, step: Step)
  {
    mode == ExitsProcess && step.Converted? && step.outcome.Exited?
  }

  /** What handling one entry does: from the converter's flags, the entry
      and its position, the step taken and the flags after it. */
  type Converting = (Session.Session, Item, nat) -> Stepped

  /** The batch loops' conversions: entry `i` is converted observing
      `envs(i)`. */
  function Conversions(cfg: Config.Namespaces, envs: nat -> Converter.FileEnv, absPath: string -> string): Converting
  {
    (s: Session.Session, item: Item, i: nat) => StepOf(cfg, s, item, envs(i), absPath)
  }

  /** The loop over `items` from position `i`, with `acc` stored so far. */
  function Loop(mode: FailureMode, conv: Converting, s: Session.Session, items: seq<Item>,
                i: nat, acc: Results.Dict): (r: LoopRun)
    requires i <= |items|
    ensures |r.steps| <= |items| - i
    ensures r.end.Completed? ==> |r.steps| == |items| - i
    ensures forall j :: 0 <= j < |r.steps| - 1 ==> !Aborts(mode, r.steps[j])
    ensures r.end.Completed? ==> forall j :: 0 <= j < |r.steps| ==> !Aborts(mode, r.steps[j])
    ensures r.end.Aborted? ==>
      && |r.steps| > 0
      && Aborts(mode, r.steps[|r.steps| - 1])
      && r.steps[|r.steps| - 1].outcome.code == r.end.code
    decreases |items| - i
  {
    if i == |items| then LoopRun(Completed(acc), s, [])
    else
      var item := items[i];
      var st := conv(s, item, i);
      if Aborts(mode, st.step) then
        LoopRun(Aborted(st.step.outcome.code), st.session, [st.step])
      else if Results.KeyOf(item.key).None? then
        LoopRun(Escaped(Results.Unhashable(item.key)), st.session, [st.step])
      else
        var rest := Loop(mode, conv, st.session, items, i + 1, Results.Put(acc, item.key, Recorded(st.step)));
        LoopRun(rest.end, rest.session, [st.step] + rest.steps)
  }

  /** The keys of `items[i..]` are hashable, pairwise different and not yet
      stored in `acc`. */
  predicate FreshKeys(items: seq<Item>, i: nat, acc: Results.Dict)
  {
    && (forall j :: i <= j < |items| ==> Results.KeyOf(items[j].key).Some?)
    && (forall j :: i <= j < |items| ==> Results.Find(acc, Results.KeyOf(items[j].key).value) == -1)
    && (forall j, k :: i <= j < k < |items| ==> Results.KeyOf(items[j].key) != Results.KeyOf(items[k].key))
  }

  /** The dictionary a recording loop builds from entry `i` on out of the
      steps it took: each step's value stored under its entry's key, until
      the steps run out or a key cannot be hashed. */
  function StoreAll(acc: Results.Dict, items: seq<Item>, i: nat, steps: seq<Step>): Results.Dict
    requires i <= |items|
    decreases |items| - i
  {
    if i == |items| || |steps| == 0 || Results.KeyOf(items[i].key).None? then acc
    else StoreAll(Results.Put(acc, items[i].key, Recorded(steps[0])), items, i + 1, steps[1..])
  }

  /** With failures recorded and every key hashable, the loop converts every
      entry and its dictionary is the steps' values stored in order. */
  lemma {:induction false} LoopStores(conv: Converting, s: Session.Session, items: seq<Item>,
                                      i: nat, acc: Results.Dict)
    requires i <= |items|
    requires forall j :: i <= j < |items| ==> Results.KeyOf(items[j].key).Some?
    ensures var r := Loop(RecordsError, conv, s, items, i, acc);
      r.end == Completed(StoreAll(acc, items, i, r.steps)) && |r.steps| == |items| - i
    decreases |items| - i
  {
    if i < |items| {
      var st := conv(s, items[i], i);
      var acc1 := Results.Put(acc, items[i].key, Recorded(st.step));
      LoopRecordsStep(conv, s, items, i, acc);
      LoopStores(conv, st.session, items, i + 1, acc1);
      var rest := Loop(RecordsError, conv, st.session, items, i + 1, acc1);
      var steps := [st.step] + rest.steps;
      assert steps[0] == st.step && steps[1..] == rest.steps;
      assert StoreAll(acc, items, i, steps) == StoreAll(acc1, items, i + 1, rest.steps);
    }
  }

  /** `res` is `acc` followed by one entry per step from entry `i` on, in
      order, each holding what its step recorded under its entry's key. */
  predicate StoredAfter(res: Results.Dict, acc: Results.Dict, items: seq<Item>, i: nat, steps: seq<Step>)
    requires i <= |items| && |steps| == |items| - i
  {
    && |res| == |acc| + |items| - i
    && res[..|acc|] == acc
    && forall j :: 0 <= j < |items| - i ==> res[|acc| + j] == Results.Entry(items[i + j].key, Recorded(steps[j]))
  }

  /** Storing fresh keys gives every entry its own dictionary entry, in
      order, after what was stored before. */
  lemma {:induction false} StoreFresh(acc: Results.Dict, items: seq<Item>, i: nat, steps: seq<Step>)
    requires i <= |items| && FreshKeys(items, i, acc) && |steps| == |items| - i
    ensures StoredAfter(StoreAll(acc, items, i, steps), acc, items, i, steps)
    decreases |items| - i
  {
    if i < |items| {
      var acc1 := acc + [Results.Entry(items[i].key, Recorded(steps[0]))];
      FreshStoreStep(acc, items, i, steps);
      StoreFresh(acc1, items, i + 1, steps[1..]);
      StoreShift(StoreAll(acc1, items, i + 1, steps[1..]), steps, acc, acc1, items, i);
    }
  }

  /** Storing the first of fresh keys appends its entry and leaves the rest
      fresh. */
  lemma FreshStoreStep(acc: Results.Dict, items: seq<Item>, i: nat, steps: seq<Step>)
    requires i < |items| && FreshKeys(items, i, acc) && |steps| > 0
    ensures var acc1 := acc + [Results.Entry(items[i].key, Recorded(steps[0]))];
      && StoreAll(acc, items, i, steps) == StoreAll(acc1, items, i + 1, steps[1..])
      && FreshKeys(items, i + 1, acc1)
  {
    FreshKeysStep(items, i, acc, Recorded(steps[0]));
  }

  /** A recording loop over fresh keys, started on an empty dictionary,
      converts every entry and stores one dictionary entry per entry, in
      order, holding what its step recorded. */
  lemma RecordsEveryItem(conv: Converting, s: Session.Session, items: seq<Item>)
    requires FreshKeys(items, 0, [])
    ensures var r := Loop(RecordsError, conv, s, items, 0, []);
      && r.end.Completed?
      && |r.end.results| == |items| == |r.steps|
      && forall j :: 0 <= j < |items| ==> r.end.results[j] == Results.Entry(items[j].key, Recorded(r.steps[j]))
  {
    LoopStores(conv, s, items, 0, []);
    var r := Loop(RecordsError, conv, s, items, 0, []);
    StoreFresh([], items, 0, r.steps);
    var res := r.end.results;
    var none: Results.Dict := [];
    assert StoredAfter(res, none, items, 0, r.steps);
    forall j | 0 <= j < |items|
      ensures res[j] == Results.Entry(items[j].key, Recorded(r.steps[j]))
    {
      assert res[|none| + j] == Results.Entry(items[0 + j].key, Recorded(r.steps[j]));
    }
  }

  /** One turn of the loop: entry `i`'s step comes first, and the loop goes
      on from `i + 1` exactly when that step neither aborts nor has an
      unhashable key. */
  lemma LoopStep(mode: FailureMode, conv: Converting, s: Session.Session, items: seq<Item>, i: nat, acc: Results.Dict)
    requires i < |items|
    ensures var st := conv(s, items[i], i);
      var r := Loop(mode, conv, s, items, i, acc);
      && |r.steps| > 0 && r.steps[0] == st.step
      && (!Aborts(mode, st.step) && Results.KeyOf(items[i].key).Some? ==>
            var rest := Loop(mode, conv, st.session, items, i + 1, Results.Put(acc, items[i].key, Recorded(st.step)));
            r == LoopRun(rest.end, rest.session, [st.step] + rest.steps))
      && (Aborts(mode, st.step) || Results.KeyOf(items[i].key).None? ==> !r.end.Completed? && r.steps == [st.step])
  {
  }

  /** As written, a loop completes exactly when the corrected loop over the
      same conversions completes with no conversion exiting; the two runs
      are then the same run. */
  lemma {:induction false} AsWrittenCompletesAsRecorded(conv: Converting, s: Session.Session, items: seq<Item>,
                                                        i: nat, acc: Results.Dict)
    requires i <= |items|
    ensures var w := Loop(ExitsProcess, conv, s, items, i, acc);
      var c := Loop(RecordsError, conv, s, items, i, acc);
      && (w.end.Completed? <==>
            c.end.Completed? && forall j :: 0 <= j < |c.steps| ==> !Aborts(ExitsProcess, c.steps[j]))
      && (w.end.Completed? ==> w == c)
    decreases |items| - i
  {
    if i < |items| {
      var st := conv(s, items[i], i);
      LoopStep(ExitsProcess, conv, s, items, i, acc);
      LoopStep(RecordsError, conv, s, items, i, acc);
      if !Aborts(ExitsProcess, st.step) && Results.KeyOf(items[i].key).Some? {
        var acc1 := Results.Put(acc, items[i].key, Recorded(st.step));
        AsWrittenCompletesAsRecorded(conv, st.session, items, i + 1, acc1);
        var rest := Loop(RecordsError, conv, st.session, items, i + 1, acc1);
        var c := Loop(RecordsError, conv, s, items, i, acc);
        assert c.steps == [st.step] + rest.steps;
        assert (forall j :: 0 <= j < |c.steps| ==> !Aborts(ExitsProcess, c.steps[j])) <==>
               (forall j :: 0 <= j < |rest.steps| ==> !Aborts(ExitsProcess, rest.steps[j])) by {
          assert forall j :: 0 < j < |c.steps| ==> c.steps[j] == rest.steps[j - 1];
          assert forall j :: 0 <= j < |rest.steps| ==> rest.steps[j] == c.steps[j + 1];
        }
      }
    }
  }

  /** A loop whose conversions never fail building a path takes only
      conversion steps. */
  lemma {:induction false} ConvertsEveryEntry(mode: FailureMode, conv: Converting, s: Session.Session,
                                              items: seq<Item>, i: nat, acc: Results.Dict)
    requires i <= |items|
    requires forall s': Session.Session, j :: i <= j < |items| ==> conv(s', items[j], j).step.Converted?
    ensures var r := Loop(mode, conv, s, items, i, acc);
      forall j :: 0 <= j < |r.steps| ==> r.steps[j].Converted?
    decreases |items| - i
  {
    if i < |items| {
      var st := conv(s, items[i], i);
      LoopStep(mode, conv, s, items, i, acc);
      if !Aborts(mode, st.step) && Results.KeyOf(items[i].key).Some? {
        var acc1 := Results.Put(acc, items[i].key, Recorded(st.step));
        ConvertsEveryEntry(mode, conv, st.session, items, i + 1, acc1);
        var rest := Loop(mode, conv, st.session, items, i + 1, acc1);
        assert forall j :: 0 < j < |[st.step] + rest.steps| ==> ([st.step] + rest.steps)[j] == rest.steps[j - 1];
      }
    }
  }

  /** The batch loops' conversions fail building a path only for an entry
      whose path failed. */
  lemma ConversionsConvert(cfg: Config.Namespaces, envs: nat -> Converter.FileEnv, absPath: string -> string,
                           items: seq<Item>)
    requires forall j :: 0 <= j < |items| ==> items[j].pathError.None?
    ensures forall s: Session.Session, j :: 0 <= j < |items| ==>
      Conversions(cfg, envs, absPath)(s, items[j], j).step.Converted?
  {
    forall s: Session.Session, j | 0 <= j < |items|
      ensures Conversions(cfg, envs, absPath)(s, items[j], j).step.Converted?
    {
      assert Conversions(cfg, envs, absPath)(s, items[j], j) == StepOf(cfg, s, items[j], envs(j), absPath);
    }
  }

  /** Storing the first fresh key appends it and leaves the rest fresh. */
  lemma FreshKeysStep(items: seq<Item>, i: nat, acc: Results.Dict, v: string)
    requires i < |items| && FreshKeys(items, i, acc)
    ensures Results.Put(acc, items[i].key, v) == acc + [Results.Entry(items[i].key, v)]
    ensures FreshKeys(items, i + 1, Results.Put(acc, items[i].key, v))
  {
    var acc1 := Results.Put(acc, items[i].key, v);
    forall j | i + 1 <= j < |items|
      ensures Results.Find(acc1, Results.KeyOf(items[j].key).value) == -1
    {
      var k := Results.KeyOf(items[j].key).value;
      assert Results.Find(acc, k) == -1;
      assert !Results.HasKey(acc1[|acc|], k);
    }
  }

  /** One turn of the recording loop on a hashable key: the step, then the
      rest of the loop on the updated dictionary. */
  lemma LoopRecordsStep(conv: Converting, s: Session.Session, items: seq<Item>, i: nat, acc: Results.Dict)
    requires i < |items| && Results.KeyOf(items[i].key).Some?
    ensures var st := conv(s, items[i], i);
      var rest := Loop(RecordsError, conv, st.session, items, i + 1,
                       Results.Put(acc, items[i].key, Recorded(st.step)));
      Loop(RecordsError, conv, s, items, i, acc) == LoopRun(rest.end, rest.session, [st.step] + rest.steps)
  {
  }

  /** Re-indexing the recursive call's entries one position on. */
  lemma StoreShift(res: Results.Dict, steps: seq<Step>, acc: Results.Dict, acc1: Results.Dict,
                   items: seq<Item>, i: nat)
    requires i < |items| && |steps| == |items| - i
    requires acc1 == acc + [Results.Entry(items[i].key, Recorded(steps[0]))]
    requires StoredAfter(res, acc1, items, i + 1, steps[1..])
    ensures StoredAfter(res, acc, items, i, steps)
  {
    assert res[..|acc|] == acc1[..|acc|];
    forall j | 0 <= j < |items| - i
      ensures res[|acc| + j] == Results.Entry(items[i + j].key, Recorded(steps[j]))
    {
      if j == 0 {
        assert res[|acc|] == acc1[|acc|];
      } else {
        assert steps[1..][j - 1] == steps[j];
        assert |acc| + j == |acc1| + (j - 1);
      }
    }
  }

  /** How many steps failed, counted from the end like the summary. */
  function FailedCount(steps: seq<Step>): nat
  {
    if |steps| == 0 then 0
    else FailedCount(steps[..|steps| - 1]) + (if Failed(steps[|steps| - 1]) then 1 else 0)
  }

  /** No returned path looks like an error text. */
  predicate PlainPaths(steps: seq<Step>)
  {
    forall j :: 0 <= j < |steps| ==> steps[j].Converted? && steps[j].outcome.Returned? ==>
      !Results.IsError(steps[j].outcome.pdf)
  }

  /** Entries recording these steps count exactly the failed steps as
      errors, provided no returned path starts with "ERROR". */
  lemma {:induction false} ErrorsAreFailures(d: Results.Dict, steps: seq<Step>)
    requires |d| == |steps| && PlainPaths(steps)
    requires forall j :: 0 <= j < |d| ==> d[j].value == Recorded(steps[j])
    ensures Results.CountErrors(d) == FailedCount(steps)
    decreases |d|
  {
    if |d| > 0 {
      var n := |d| - 1;
      ErrorsAreFailures(d[..n], steps[..n]);
      var v := Recorded(steps[n]);
      if Failed(steps[n]) {
        assert v[..5] == "ERROR";
      }
    }
  }

  /** `process_folder`'s view of the file system: whether the folder exists,
      the names `glob` matches in it, in the order given, what creating the
      output folder raises, and how the converter's close goes. */
  datatype FolderEnv = FolderEnv(found: bool, matches: seq<string>, mkdirError: Option<Exc>,
                                 closing: Session.CloseOutcome)

  /** A batch driver's run: how it ended, where it called `mkdir`, the
      steps of its loop, and the converter's flags after `__exit__`. */
  datatype BatchRun = BatchRun(end: LoopEnd, mkdirAt: Option<string>, steps: seq<Step>, session: Session.Session)

  /** Nothing done: the early `return {}`. */
  const Nothing := BatchRun(Completed([]), None, [], Session.Fresh)

  /** The output folder: the one given, or "pdf_output" inside the input
      folder. */
  function OutputFolder(folder: string, out: Option<string>): (d: string)
    ensures out.Some? ==> d == out.value
    ensures out.None? ==> Paths.BaseName(d) == "pdf_output" && |d| > |folder| && d[..|folder|] == folder
  {
    Paths.JoinPathBaseName(folder, "pdf_output");
    if out.None? then Paths.JoinPath(folder, "pdf_output") else out.value
  }

  function FolderItems(folder: string, outDir: string, names: seq<string>): (items: seq<Item>)
    ensures |items| == |names|
    ensures forall j :: 0 <= j < |names| ==> items[j] == FolderItem(folder, outDir, names[j])
    ensures forall j :: 0 <= j < |names| ==> items[j].key == JStr(Paths.JoinPath(folder, names[j]))
  {
    seq(|names|, j requires 0 <= j < |names| => FolderItem(folder, outDir, names[j]))
  }

  function ProcessFolder(mode: FailureMode, cfg: Config.Namespaces, folder: string, out: Option<string>,
                         fs: FolderEnv, envs: nat -> Converter.FileEnv, absPath: string -> string): (r: BatchRun)
    // a missing folder, or one without matches, gives {} and creates nothing
    ensures !fs.found || |fs.matches| == 0 ==> r == Nothing
    // otherwise the output folder is created first
    ensures fs.found && |fs.matches| > 0 ==> r.mkdirAt == Some(OutputFolder(folder, out))
    ensures fs.mkdirError.Some? && r.mkdirAt.Some? ==> r.end == Escaped(fs.mkdirError.value) && r.steps == []
    // then every match is converted in order until one aborts
    ensures r.mkdirAt.Some? && fs.mkdirError.None? ==>
      var loop := Loop(mode, Conversions(cfg, envs, absPath), Session.Fresh, FolderItems(folder, OutputFolder(folder, out), fs.matches), 0, []);
      && r.end == loop.end && r.steps == loop.steps
      && r.session == Session.Close(loop.session, fs.closing)
  {
    if !fs.found || |fs.matches| == 0 then Nothing
    else
      var outDir := OutputFolder(folder, out);
      if fs.mkdirError.Some? then BatchRun(Escaped(fs.mkdirError.value), Some(outDir), [], Session.Fresh)
      else
        var loop := Loop(mode, Conversions(cfg, envs, absPath), Session.Fresh, FolderItems(folder, outDir, fs.matches), 0, []);
        BatchRun(loop.end, Some(outDir), loop.steps, Session.Close(loop.session, fs.closing))
  }

  /** Names from one listing: no name twice. */
  predicate DistinctNames(names: seq<string>)
  {
    forall j, k :: 0 <= j < k < |names| ==> names[j] != names[k]
  }

  /** Distinct names in one folder are distinct paths. */
  lemma FolderPathsDistinct(folder: string, names: seq<string>)
    requires DistinctNames(names)
    ensures forall j, k :: 0 <= j < k < |names| ==> Paths.JoinPath(folder, names[j]) != Paths.JoinPath(folder, names[k])
  {
    forall j, k | 0 <= j < k < |names|
      ensures Paths.JoinPath(folder, names[j]) != Paths.JoinPath(folder, names[k])
    {
      if Paths.JoinPath(folder, names[j]) == Paths.JoinPath(folder, names[k]) {
        Paths.JoinPathInjective(folder, names[j], names[k]);
      }
    }
  }

  /** The keys of a folder's items are its distinct paths. */
  lemma FolderKeysAreFresh(folder: string, outDir: string, names: seq<string>)
    requires DistinctNames(names)
    ensures FreshKeys(FolderItems(folder, outDir, names), 0, [])
  {
    FolderPathsDistinct(folder, names);
  }

  /** The corrected folder run records every matched file: one entry per
      file, keyed by its path, in listing order, holding the returned path
      or "ERROR: " and the failure's text. */
  lemma CorrectedFolderRecordsEveryFile(cfg: Config.Namespaces, folder: string, out: Option<string>,
                                        fs: FolderEnv, envs: nat -> Converter.FileEnv, absPath: string -> string)
    requires fs.found && |fs.matches| > 0 && fs.mkdirError.None? && DistinctNames(fs.matches)
    ensures var r := ProcessFolder(RecordsError, cfg, folder, out, fs, envs, absPath);
      && r.end.Completed?
      && |r.end.results| == |fs.matches| == |r.steps|
      && (forall j :: 0 <= j < |fs.matches| ==>
            r.end.results[j] == Results.Entry(JStr(Paths.JoinPath(folder, fs.matches[j])), Recorded(r.steps[j])))
  {
    var outDir := OutputFolder(folder, out);
    var items := FolderItems(folder, outDir, fs.matches);
    var conv := Conversions(cfg, envs, absPath);
    FolderKeysAreFresh(folder, outDir, fs.matches);
    RecordsEveryItem(conv, Session.Fresh, items);
    FolderRunIsLoop(RecordsError, cfg, folder, out, fs, envs, absPath);
    var loop := Loop(RecordsError, conv, Session.Fresh, items, 0, []);
    FolderEntriesArePaths(folder, outDir, fs.matches, loop.end.results, loop.steps);
  }

  /** As written, a folder run that completes, because no conversion
      exited, returns one entry per file, keyed by its path, in listing
      order, each holding the PDF path its conversion returned. */
  lemma AsWrittenFolderRecordsEveryFile(cfg: Config.Namespaces, folder: string, out: Option<string>,
                                        fs: FolderEnv, envs: nat -> Converter.FileEnv, absPath: string -> string)
    requires fs.found && |fs.matches| > 0 && fs.mkdirError.None? && DistinctNames(fs.matches)
    ensures var r := ProcessFolder(ExitsProcess, cfg, folder, out, fs, envs, absPath);
      r.end.Completed? ==>
        && |r.end.results| == |fs.matches| == |r.steps|
        && forall j :: 0 <= j < |fs.matches| ==>
             && r.steps[j].Converted? && r.steps[j].outcome.Returned?
             && r.end.results[j] == Results.Entry(JStr(Paths.JoinPath(folder, fs.matches[j])), r.steps[j].outcome.pdf)
  {
    AsWrittenFolderIsCorrected(cfg, folder, out, fs, envs, absPath);
    CorrectedFolderRecordsEveryFile(cfg, folder, out, fs, envs, absPath);
  }

  /** A folder run that completes as written is the corrected run, and all
      of its conversions returned a path. */
  lemma AsWrittenFolderIsCorrected(cfg: Config.Namespaces, folder: string, out: Option<string>,
                                   fs: FolderEnv, envs: nat -> Converter.FileEnv, absPath: string -> string)
    requires fs.found && |fs.matches| > 0 && fs.mkdirError.None?
    ensures var w := ProcessFolder(ExitsProcess, cfg, folder, out, fs, envs, absPath);
      var c := ProcessFolder(RecordsError, cfg, folder, out, fs, envs, absPath);
      w.end.Completed? ==>
        && w.end == c.end && w.steps == c.steps
        && forall j :: 0 <= j < |w.steps| ==> w.steps[j].Converted? && w.steps[j].outcome.Returned?
  {
    var items := FolderItems(folder, OutputFolder(folder, out), fs.matches);
    var conv := Conversions(cfg, envs, absPath);
    var w := Loop(ExitsProcess, conv, Session.Fresh, items, 0, []);
    FolderRunIsLoop(ExitsProcess, cfg, folder, out, fs, envs, absPath);
    FolderRunIsLoop(RecordsError, cfg, folder, out, fs, envs, absPath);
    if w.end.Completed? {
      AsWrittenCompletesAsRecorded(conv, Session.Fresh, items, 0, []);
      ConversionsConvert(cfg, envs, absPath, items);
      ConvertsEveryEntry(ExitsProcess, conv, Session.Fresh, items, 0, []);
    }
  }

  /** A folder run past `mkdir` is its loop over the folder's items. */
  lemma FolderRunIsLoop(mode: FailureMode, cfg: Config.Namespaces, folder: string, out: Option<string>,
                        fs: FolderEnv, envs: nat -> Converter.FileEnv, absPath: string -> string)
    requires fs.found && |fs.matches| > 0 && fs.mkdirError.None?
    ensures var r := ProcessFolder(mode, cfg, folder, out, fs, envs, absPath);
      var loop := Loop(mode, Conversions(cfg, envs, absPath), Session.Fresh,
                       FolderItems(folder, OutputFolder(folder, out), fs.matches), 0, []);
      r.end == loop.end && r.steps == loop.steps
  {
  }

  /** Entries keyed by a folder's items are keyed by the files' paths. */
  lemma FolderEntriesArePaths(folder: string, outDir: string, names: seq<string>, res: Results.Dict, steps: seq<Step>)
    requires var items := FolderItems(folder, outDir, names);
      && |res| == |items| == |steps|
      && forall j :: 0 <= j < |items| ==> res[j] == Results.Entry(items[j].key, Recorded(steps[j]))
    ensures forall j :: 0 <= j < |names| ==>
      res[j] == Results.Entry(JStr(Paths.JoinPath(folder, names[j])), Recorded(steps[j]))
  {
  }

  /** A dictionary that records one entry per step, as the corrected loops
      build it, summarises to exactly the number of failed steps. */
  lemma SummaryCountsFailedSteps(d: Results.Dict, steps: seq<Step>)
    requires |d| == |steps| && PlainPaths(steps)
    requires forall j :: 0 <= j < |d| ==> d[j].value == Recorded(steps[j])
    ensures Results.Summarize(d).failed == FailedCount(steps)
  {
    ErrorsAreFailures(d, steps);
  }

  /** As written, a file that fails validation ends the whole folder run:
      with the built-in codes the batch stops after that one conversion
      with exit code 1, and the files after it are never converted. */
  lemma AsWrittenFailureAbortsFolder(folder: string, out: Option<string>, fs: FolderEnv,
                                     envs: nat -> Converter.FileEnv, absPath: string -> string)
    requires fs.found && |fs.matches| >= 2 && fs.mkdirError.None?
    requires !Converter.Passes(envs(0).validation)
    ensures var r := ProcessFolder(ExitsProcess, Config.Defaults(), folder, out, fs, envs, absPath);
      && r.end.Aborted?
      && ExitCodes.ExitStatus(r.end.code) == 1
      && |r.steps| == 1 < |fs.matches|
  {
    var outDir := OutputFolder(folder, out);
    var items := FolderItems(folder, outDir, fs.matches);
    FolderRunIsLoop(ExitsProcess, Config.Defaults(), folder, out, fs, envs, absPath);
    Converter.ValidationFailureExitsWithOne(Session.Fresh, items[0].input.s, items[0].requested, envs(0), absPath);
  }

  /** The output folder handed on: an optional path argument when it is
      truthy, that is, given and not empty. */
  function GivenFolder(out: Option<string>): (r: Option<string>)
    ensures r.Some? <==> out.Some? && out.value != ""
    ensures r.Some? ==> r == out
  {
    if out.Some? && out.value != "" then out else None
  }

  function ListItems(entries: seq<Json>, outDir: Option<string>): (items: seq<Item>)
    ensures |items| == |entries|
    ensures forall j :: 0 <= j < |entries| ==> items[j] == ListItem(entries[j], outDir)
  {
    seq(|entries|, j requires 0 <= j < |entries| => ListItem(entries[j], outDir))
  }

  /** `convert_batch(file_list, output_dir)` on a converter with flags `s`. */
  function ConvertBatch(mode: FailureMode, cfg: Config.Namespaces, s: Session.Session, entries: seq<Json>,
                        outDir: Option<string>, envs: nat -> Converter.FileEnv, absPath: string -> string): (r: LoopRun)
    // at most one step per entry, and one per entry when the loop ends normally
    ensures |r.steps| <= |entries|
    ensures r.end.Completed? ==> |r.steps| == |entries|
    // only the last step can have ended the batch
    ensures r.end.Aborted? ==> |r.steps| > 0 && Aborts(mode, r.steps[|r.steps| - 1])
    // a batch that ends normally had no step that ends it
    ensures r.end.Completed? ==> forall j :: 0 <= j < |r.steps| ==> !Aborts(mode, r.steps[j])
  {
    Loop(mode, Conversions(cfg, envs, absPath), s, ListItems(entries, GivenFolder(outDir)), 0, [])
  }

  /** Entries no two of which Python would store under the same key. */
  predicate DistinctKeys(entries: seq<Json>)
  {
    && (forall j :: 0 <= j < |entries| ==> Results.KeyOf(entries[j]).Some?)
    && (forall j, k :: 0 <= j < k < |entries| ==> Results.KeyOf(entries[j]) != Results.KeyOf(entries[k]))
  }

  /** Corrected, `convert_batch` yields one entry per input, in list order,
      holding the result or "ERROR: " and the failure's text. */
  lemma CorrectedBatchRecordsEveryEntry(cfg: Config.Namespaces, s: Session.Session, entries: seq<Json>,
                                        outDir: Option<string>, envs: nat -> Converter.FileEnv,
                                        absPath: string -> string)
    requires DistinctKeys(entries)
    ensures var r := ConvertBatch(RecordsError, cfg, s, entries, outDir, envs, absPath);
      && r.end.Completed?
      && |r.end.results| == |entries| == |r.steps|
      && forall j :: 0 <= j < |entries| ==> r.end.results[j] == Results.Entry(entries[j], Recorded(r.steps[j]))
  {
    RecordsEveryItem(Conversions(cfg, envs, absPath), s, ListItems(entries, GivenFolder(outDir)));
  }

  /** As written, a list batch that completes, because no conversion
      exited, returns one entry per input, in list order: the PDF path the
      conversion returned, or "ERROR: " and the text of the failure to build
      the entry's output path. */
  lemma AsWrittenBatchRecordsEveryEntry(cfg: Config.Namespaces, s: Session.Session, entries: seq<Json>,
                                        outDir: Option<string>, envs: nat -> Converter.FileEnv,
                                        absPath: string -> string)
    requires DistinctKeys(entries)
    ensures var r := ConvertBatch(ExitsProcess, cfg, s, entries, outDir, envs, absPath);
      r.end.Completed? ==>
        && |r.end.results| == |entries| == |r.steps|
        && forall j :: 0 <= j < |entries| ==>
             && (r.steps[j].Converted? ==> r.steps[j].outcome.Returned?)
             && r.end.results[j] == Results.Entry(entries[j], Recorded(r.steps[j]))
  {
    AsWrittenCompletesAsRecorded(Conversions(cfg, envs, absPath), s, ListItems(entries, GivenFolder(outDir)), 0, []);
    CorrectedBatchRecordsEveryEntry(cfg, s, entries, outDir, envs, absPath);
  }

  /** With an output folder, a string entry is written there under its stem
      plus ".pdf"; a non-string entry fails building that path and, when it
      can be a key, is recorded as that failure without being converted. */
  lemma OutputFolderNaming(mode: FailureMode, cfg: Config.Namespaces, s: Session.Session, entries: seq<Json>,
                           outDir: string, envs: nat -> Converter.FileEnv, absPath: string -> string)
    requires outDir != "" && |entries| > 0
    ensures var it := ListItems(entries, GivenFolder(Some(outDir)))[0];
      && (entries[0].JStr? ==> it.requested == Some(Paths.JoinPath(outDir, Paths.PdfName(entries[0].s))))
      && (!entries[0].JStr? && Results.KeyOf(entries[0]).Some? ==>
            var r := ConvertBatch(mode, cfg, s, entries, Some(outDir), envs, absPath);
            r.steps[0] == PathFailed(Converter.PathTypeError(entries[0])))
  {
  }

  /** What `json.load` gave for the list file: nothing usable, or a
      document; for a top-level object, `objectKeys` are its keys in file
      order, which is the order Python iterates them in. */
  datatype ListFile = Unloadable | Parsed(doc: Json, objectKeys: seq<string>)

  /** `for excel_file in file_list`: a list gives its elements, a string
      its characters, an object its keys; anything else raises TypeError. */
  function Iterate(doc: Json, objectKeys: seq<string>): (r: Result<seq<Json>>)
    ensures doc.JArr? ==> r == Ok(doc.items)
    ensures doc.JStr? ==>
      && r.Ok? && |r.value| == |doc.s|
      && forall j :: 0 <= j < |doc.s| ==> r.value[j] == JStr([doc.s[j]])
    ensures doc.JObj? ==>
      && r.Ok? && |r.value| == |objectKeys|
      && forall j :: 0 <= j < |objectKeys| ==> r.value[j] == JStr(objectKeys[j])
    ensures r.Err? <==> !(doc.JArr? || doc.JStr? || doc.JObj?)
  {
    match doc
    case JArr(items) => Ok(items)
    case JStr(text) => Ok(seq(|text|, j requires 0 <= j < |text| => JStr([text[j]])))
    case JObj(_) => Ok(seq(|objectKeys|, j requires 0 <= j < |objectKeys| => JStr(objectKeys[j])))
    case _ => Err(Exc(OtherError, "'" + TypeName(doc) + "' object is not iterable"))
  }

  /** `objectKeys` lists the keys of the object `doc`, as `json.load` read
      them: every key once, and nothing else. */
  predicate ListsKeysOf(doc: Json, objectKeys: seq<string>)
    requires doc.JObj?
  {
    && (forall j, k :: 0 <= j < k < |objectKeys| ==> objectKeys[j] != objectKeys[k])
    && (forall j :: 0 <= j < |objectKeys| ==> objectKeys[j] in doc.fields)
    && (forall key :: key in doc.fields ==> key in objectKeys)
  }

  /** Iterating an object whose keys are listed gives exactly its keys, each
      once. */
  lemma IterateObjectGivesItsKeys(doc: Json, objectKeys: seq<string>)
    requires doc.JObj? && ListsKeysOf(doc, objectKeys)
    ensures var r := Iterate(doc, objectKeys);
      && r.Ok?
      && (forall e: Json :: e in r.value <==> e.JStr? && e.s in doc.fields)
      && (forall j, k :: 0 <= j < k < |r.value| ==> r.value[j] != r.value[k])
  {
    var r := Iterate(doc, objectKeys);
    forall e: Json | e.JStr? && e.s in doc.fields ensures e in r.value {
      var j :| 0 <= j < |objectKeys| && objectKeys[j] == e.s;
      assert r.value[j] == e;
    }
  }

  /** `process_file_list`'s inputs besides the entries' environments. */
  datatype ListEnv = ListEnv(file: ListFile, mkdirError: Option<Exc>, closing: Session.CloseOutcome)

  function ProcessFileList(mode: FailureMode, cfg: Config.Namespaces, out: Option<string>, ls: ListEnv,
                           envs: nat -> Converter.FileEnv, absPath: string -> string): (r: BatchRun)
    // a list file that cannot be loaded gives {} with nothing done
    ensures ls.file == Unloadable ==> r == Nothing
    // a truthy output folder is created before the converter starts
    ensures ls.file.Parsed? ==> r.mkdirAt == GivenFolder(out)
    ensures ls.file.Parsed? && r.mkdirAt.Some? && ls.mkdirError.Some? ==>
      r.end == Escaped(ls.mkdirError.value) && r.steps == []
    // otherwise the entries go to `convert_batch` with that folder or None
    ensures ls.file.Parsed? && (r.mkdirAt.None? || ls.mkdirError.None?) ==>
      match Iterate(ls.file.doc, ls.file.objectKeys)
      case Err(e) => r.end == Escaped(e) && r.steps == [] && r.session == Session.Fresh
      case Ok(entries) =>
        var loop := ConvertBatch(mode, cfg, Session.Fresh, entries, out, envs, absPath);
        r.end == loop.end && r.steps == loop.steps && r.session == Session.Close(loop.session, ls.closing)
  {
    match ls.file
    case Unloadable => Nothing
    case Parsed(doc, keys) =>
      var outDir := GivenFolder(out);
      if outDir.Some? && ls.mkdirError.Some? then BatchRun(Escaped(ls.mkdirError.value), outDir, [], Session.Fresh)
      else
        match Iterate(doc, keys)
        case Err(e) => BatchRun(Escaped(e), outDir, [], Session.Close(Session.Fresh, ls.closing))
        case Ok(entries) =>
          var loop := ConvertBatch(mode, cfg, Session.Fresh, entries, out, envs, absPath);
          BatchRun(loop.end, outDir, loop.steps, Session.Close(loop.session, ls.closing))
  }

  /** Corrected, a list run whose file loads as distinct hashable entries
      records one entry per list element, in list order, after creating the
      output folder it was given. */
  lemma CorrectedListRecordsEveryEntry(cfg: Config.Namespaces, out: Option<string>, ls: ListEnv,
                                       envs: nat -> Converter.FileEnv, absPath: string -> string)
    requires ls.file.Parsed? && (GivenFolder(out).None? || ls.mkdirError.None?)
    requires Iterate(ls.file.doc, ls.file.objectKeys).Ok?
    requires DistinctKeys(Iterate(ls.file.doc, ls.file.objectKeys).value)
    ensures var entries := Iterate(ls.file.doc, ls.file.objectKeys).value;
      var r := ProcessFileList(RecordsError, cfg, out, ls, envs, absPath);
      && r.mkdirAt == GivenFolder(out)
      && r.end.Completed?
      && |r.end.results| == |entries| == |r.steps|
      && forall j :: 0 <= j < |entries| ==> r.end.results[j] == Results.Entry(entries[j], Recorded(r.steps[j]))
  {
    var entries := Iterate(ls.file.doc, ls.file.objectKeys).value;
    CorrectedBatchRecordsEveryEntry(cfg, Session.Fresh, entries, out, envs, absPath);
  }

  /** The command line: usage, a list file, or a folder. */
  datatype Command = Usage | ListMode(listPath: string, out: Option<string>) | FolderMode(folder: string, out: Option<string>)

  /** `sys.argv` dispatch; `argv[0]` is the script. */
  function Dispatch(argv: seq<string>): (c: Command)
    ensures c == Usage <==> |argv| < 2
    ensures c.ListMode? <==> |argv| > 2 && argv[1] == "--list"
    ensures c.ListMode? ==> c.listPath == argv[2] && c.out == (if |argv| > 3 then Some(argv[3]) else None)
    ensures c.FolderMode? ==> c.folder == argv[1] && c.out == (if |argv| > 2 then Some(argv[2]) else None)
  {
    if |argv| < 2 then Usage
    else if argv[1] == "--list" && |argv| > 2 then ListMode(argv[2], if |argv| > 3 then Some(argv[3]) else None)
    else FolderMode(argv[1], if |argv| > 2 then Some(argv[2]) else None)
  }

  /** A bare "--list" is taken for a folder of that name. */
  lemma BareListIsAFolder()
    ensures Dispatch(["batch_converter.py", "--list"]) == FolderMode("--list", None)
  {
  }

  /** What the batch command observes besides the conversions: the folder,
      the list file, and whether the report file can be written. */
  datatype MainEnv = MainEnv(folder: FolderEnv, list: ListEnv, reportWritten: bool)

  /** The command's run: what it dispatched to, the batch it ran, the
      summary it logged, and the process exit status. */
  datatype MainRun = MainRun(command: Command, batch: Option<BatchRun>, summary: Option<Results.Summary>, status: int)

  /** `batch_converter.main`: usage returns normally; a finished batch logs
      its summary and writes the report, a failure there or any escaping
      exception exits with 1; SystemExit from a conversion passes through
      with its code. */
  function Main(mode: FailureMode, cfg: Config.Namespaces, argv: seq<string>, env: MainEnv,
                envs: nat -> Converter.FileEnv, absPath: string -> string): (r: MainRun)
    ensures r.command == Dispatch(argv)
    ensures r.batch.None? <==> r.command == Usage
    ensures r.command == Usage ==> r.status == 0 && r.summary.None?
    ensures r.command.ListMode? ==>
      r.batch == Some(ProcessFileList(mode, cfg, r.command.out, env.list, envs, absPath))
    ensures r.command.FolderMode? ==>
      r.batch == Some(ProcessFolder(mode, cfg, r.command.folder, r.command.out, env.folder, envs, absPath))
    ensures r.batch.Some? && r.batch.value.end.Completed? ==>
      && r.summary == Some(Results.Summarize(r.batch.value.end.results))
      && (r.status == 0 <==> env.reportWritten)
      && (r.status == 1 <==> !env.reportWritten)
    ensures r.batch.Some? && r.batch.value.end.Aborted? ==>
      r.summary.None? && r.status == ExitCodes.ExitStatus(r.batch.value.end.code)
    ensures r.batch.Some? && r.batch.value.end.Escaped? ==> r.summary.None? && r.status == 1
  {
    var c := Dispatch(argv);
    match c
    case Usage => MainRun(c, None, None, 0)
    case ListMode(listPath, out) => Finish(c, ProcessFileList(mode, cfg, out, env.list, envs, absPath), env.reportWritten)
    case FolderMode(folder, out) => Finish(c, ProcessFolder(mode, cfg, folder, out, env.folder, envs, absPath), env.reportWritten)
  }

  /** The summary, the report and the `except Exception` of `main`. */
  function Finish(c: Command, run: BatchRun, reportWritten: bool): (r: MainRun)
    ensures r.command == c && r.batch == Some(run)
    // a summary is logged exactly when the batch completed
    ensures r.summary.Some? <==> run.end.Completed?
    // the status is 0 only for a completed batch whose report was written,
    // or for a SystemExit that itself carries status 0
    ensures r.status == 0 <==>
      (run.end.Completed? && reportWritten) || (run.end.Aborted? && ExitCodes.ExitStatus(run.end.code) == 0)
  {
    match run.end
    case Completed(results) => MainRun(c, Some(run), Some(Results.Summarize(results)), if reportWritten then 0 else 1)
    case Aborted(code) => MainRun(c, Some(run), None, ExitCodes.ExitStatus(code))
    case Escaped(_) => MainRun(c, Some(run), None, 1)
  }

  /** A missing folder still ends normally: the summary is all zeros and the
      report is written. */
  lemma MissingFolderReportsZeros(mode: FailureMode, cfg: Config.Namespaces, argv: seq<string>, env: MainEnv,
                                  envs: nat -> Converter.FileEnv, absPath: string -> string)
    requires |argv| >= 2 && argv[1] != "--list" && !env.folder.found && env.reportWritten
    ensures var r := Main(mode, cfg, argv, env, envs, absPath);
      r.summary == Some(Results.Summary(0, 0, 0)) && r.status == 0
  {
  }

  /** As written, one missing file in a folder run ends the command with
      status 1 and no summary, whatever the other files are. */
  lemma AsWrittenFailureEndsCommand(argv: seq<string>, env: MainEnv, envs: nat -> Converter.FileEnv,
                                    absPath: string -> string)
    requires |argv| >= 2 && argv[1] != "--list"
    requires env.folder.found && |env.folder.matches| >= 2 && env.folder.mkdirError.None?
    requires !Converter.Passes(envs(0).validation)
    ensures var r := Main(ExitsProcess, Config.Defaults(), argv, env, envs, absPath);
      r.summary.None? && r.status == 1
  {
    var c := Dispatch(argv);
    AsWrittenFailureAbortsFolder(c.folder, c.out, env.folder, envs, absPath);
  }

  /** Corrected, a folder command logs a summary with one entry per matched
      file whose failure count is the number of files that failed, and exits
      with 0 exactly when the report was written. */
  lemma CorrectedCommandCountsFailures(cfg: Config.Namespaces, argv: seq<string>, env: MainEnv,
                                       envs: nat -> Converter.FileEnv, absPath: string -> string)
    requires Dispatch(argv).FolderMode?
    requires env.folder.found && |env.folder.matches| > 0 && env.folder.mkdirError.None?
    requires DistinctNames(env.folder.matches)
    ensures var r := Main(RecordsError, cfg, argv, env, envs, absPath);
      && r.batch.Some? && r.summary.Some?
      && r.summary.value.total == |env.folder.matches| == |r.batch.value.steps|
      && (PlainPaths(r.batch.value.steps) ==> r.summary.value.failed == FailedCount(r.batch.value.steps))
      && (r.status == 0 <==> env.reportWritten)
  {
    var c := Dispatch(argv);
    var run := ProcessFolder(RecordsError, cfg, c.folder, c.out, env.folder, envs, absPath);
    CorrectedFolderRecordsEveryFile(cfg, c.folder, c.out, env.folder, envs, absPath);
    assert run.end.Completed? && |run.steps| == |env.folder.matches|;
    var r := Main(RecordsError, cfg, argv, env, envs, absPath);
    assert r.batch == Some(run);
    if PlainPaths(run.steps) {
      SummaryCountsFailedSteps(run.end.results, run.steps);
    }
  }
}

=== FILE: config.dfy ===
/** The RPA configuration: built-in defaults, the override file's shallow
    merge, and the dotted-path lookup every component reads settings with. */
module Config {
  import opened PyValues
  import Text

  /** The top-level configuration dictionary: namespace name to value. */
  type Namespaces = map<string, Json>

  function ExitCodesDefault(): map<string, Json>
  {
    map[
      "success" := JInt(0),
      "file_not_found" := JInt(1),
      "excel_error" := JInt(2),
      "timeout" := JInt(3),
      "permission_error" := JInt(4),
      "general_error" := JInt(99)
    ]
  }

  /** The built-in settings every run starts from. */
  function Defaults(): (cfg: Namespaces)
    ensures cfg.Keys == {"excel", "pdf", "rpa", "cleanup"}
  {
    map[
      "excel" := JObj(map[
        "timeout_seconds" := JInt(300),
        "retry_attempts" := JInt(3),
        "retry_delay" := JInt(5),
        "visible" := JBool(false),
        "display_alerts" := JBool(false)
      ]),
      "pdf" := JObj(map[
        "default_quality" := JInt(600),
        "default_orientation" := JStr("auto"),
        "margins_cm" := JReal(1.0),
        "fit_to_width" := JBool(true)
      ]),
      "rpa" := JObj(map[
        "exit_codes" := JObj(ExitCodesDefault()),
        "log_level" := JStr("INFO")
      ]),
      "cleanup" := JObj(map[
        "kill_orphaned_excel" := JBool(true),
        "max_excel_processes" := JInt(5)
      ])
    ]
  }

  /** What reading the override file gave: no file, a file that could not be
      opened or parsed, or the parsed document. */
  datatype ConfigFile = Absent | Unreadable | Loaded(doc: Json)

  /** `dict.update(doc)` on the top-level dictionary. An object replaces the
      namespaces it names and keeps the others. Any other document is read
      as a sequence of key/value pairs (see `UpdatePairs`); numbers, booleans,
      null and strings either have no pairs or fail on the first one. */
  function Update(cfg: Namespaces, doc: Json): (r: Namespaces)
    ensures doc.JObj? ==> r.Keys == cfg.Keys + doc.fields.Keys
    ensures doc.JObj? ==> forall k :: k in doc.fields ==> r[k] == doc.fields[k]
    ensures doc.JObj? ==> forall k :: k in cfg && k !in doc.fields ==> r[k] == cfg[k]
    ensures !doc.JObj? && !doc.JArr? ==> r == cfg
  {
    match doc
    case JObj(fields) => cfg + fields
    case JArr(items) => UpdatePairs(cfg, items)
    case _ => cfg
  }

  /** `dict.update` over a sequence: each element must be a two-element
      sequence (a two-item array, or a two-character string). Pairs are
      applied one by one; the first element that is not a pair, or whose key
      is unhashable, raises and stops the update with the earlier pairs
      already applied. A pair whose key is a number, boolean or null is
      applied in Python under a non-string key that no dotted lookup can
      reach, so the model skips it. */
  function UpdatePairs(cfg: Namespaces, items: seq<Json>): (r: Namespaces)
    // pairs add or replace namespaces, they never remove one
    ensures cfg.Keys <= r.Keys
    decreases |items|
  {
    if |items| == 0 then cfg
    else
      match items[0]
      case JArr(pair) =>
        if |pair| != 2 then cfg
        else (
          match pair[0]
          case JStr(k) => UpdatePairs(cfg[k := pair[1]], items[1..])
          case JArr(_) => cfg
          case JObj(_) => cfg
          case _ => UpdatePairs(cfg, items[1..]))
      case JStr(s) =>
        if |s| == 2 then UpdatePairs(cfg[[s[0]] := JStr([s[1]])], items[1..]) else cfg
      case _ => cfg
  }

  /** The configuration a run uses: defaults, updated by the override file
      when it could be read and parsed. */
  function Load(file: ConfigFile): (cfg: Namespaces)
    ensures !file.Loaded? ==> cfg == Defaults()
    ensures file.Loaded? && file.doc.JObj? ==>
      forall k :: k in file.doc.fields ==> k in cfg && cfg[k] == file.doc.fields[k]
    ensures file.Loaded? && file.doc.JObj? ==>
      forall k :: k in Defaults() && k !in file.doc.fields ==> k in cfg && cfg[k] == Defaults()[k]
  {
    match file
    case Loaded(doc) => Update(Defaults(), doc)
    case _ => Defaults()
  }

  /** Walks nested objects along `keys`; None as soon as a value on the way
      is not an object or lacks the next key. */
  function Resolve(v: Json, keys: seq<string>): Option<Json>
    decreases |keys|
  {
    if |keys| == 0 then Some(v)
    else if v.JObj? && keys[0] in v.fields then Resolve(v.fields[keys[0]], keys[1..])
    else None
  }

  /** Looks up `rest` (a dotted path) inside a value. */
  function GetWithin(v: Json, rest: string, default: Json): Json
  {
    match Resolve(v, Text.Split(rest, '.'))
    case Some(w) => w
    case None => default
  }

  /** `RPAConfig.get(key_path, default)`: the value at the dot-separated path
      when every segment names a key of a nested object, the default
      otherwise. It never fails. */
  function Get(cfg: Namespaces, path: string, default: Json): (r: Json)
    // a path without dots names a namespace itself
    ensures '.' !in path ==> r == if path in cfg then cfg[path] else default
    // the default is given back whenever the first segment names no namespace
    ensures Text.Split(path, '.')[0] !in cfg ==> r == default
  {
    var r := GetWithin(JObj(cfg), path, default);
    assert '.' !in path ==> r == if path in cfg then cfg[path] else default by {
      if '.' !in path {
        Text.SplitNoSeparator(path, '.');
        assert [path][1..] == [];
        assert Resolve(JObj(cfg), [path]) == if path in cfg then Resolve(cfg[path], []) else None;
      }
    }
    r
  }

  /** Walking a concatenated path walks the first part, then the second
      from wherever the first ended. */
  lemma {:induction false} ResolveAppend(v: Json, a: seq<string>, b: seq<string>)
    ensures Resolve(v, a + b) ==
      match Resolve(v, a)
      case None => None
      case Some(w) => Resolve(w, b)
    decreases |a|
  {
    if |a| > 0 {
      assert (a + b)[0] == a[0];
      assert (a + b)[1..] == a[1..] + b;
      if v.JObj? && a[0] in v.fields {
        ResolveAppend(v.fields[a[0]], a[1..], b);
      }
    } else {
      assert a + b == b;
    }
  }

  /** `get("ns.rest")` looks `rest` up inside namespace `ns`, and gives the
      default when there is no such namespace. */
  lemma GetDotted(cfg: Namespaces, ns: string, rest: string, default: Json)
    requires '.' !in ns
    ensures Get(cfg, ns + "." + rest, default) ==
      if ns in cfg then GetWithin(cfg[ns], rest, default) else default
  {
    Text.SplitAround(ns, '.', rest);
    Text.SplitNoSeparator(ns, '.');
    ResolveAppend(JObj(cfg), [ns], Text.Split(rest, '.'));
  }

  /** A lookup depends only on the namespace its first segment names. */
  lemma GetDependsOnNamespace(c1: Namespaces, c2: Namespaces, path: string, default: Json)
    requires Text.Split(path, '.')[0] in c1 <==> Text.Split(path, '.')[0] in c2
    requires Text.Split(path, '.')[0] in c1 ==>
      c1[Text.Split(path, '.')[0]] == c2[Text.Split(path, '.')[0]]
    ensures Get(c1, path, default) == Get(c2, path, default)
  {
    var keys := Text.Split(path, '.');
    assert keys == [keys[0]] + keys[1..];
    ResolveAppend(JObj(c1), [keys[0]], keys[1..]);
    ResolveAppend(JObj(c2), [keys[0]], keys[1..]);
  }

  /** The merge is shallow: a namespace named in the override object is
      looked up in the override alone, whatever the base held. */
  lemma OverrideReplacesNamespace(base: Namespaces, o: map<string, Json>, ns: string, rest: string, default: Json)
    requires '.' !in ns && ns in o
    ensures Get(Update(base, JObj(o)), ns + "." + rest, default) == GetWithin(o[ns], rest, default)
  {
    GetDotted(Update(base, JObj(o)), ns, rest, default);
  }

  /** A namespace the override object does not name reads exactly as in the
      base, for every path into it. */
  lemma OverrideKeepsOtherNamespaces(base: Namespaces, o: map<string, Json>, path: string, default: Json)
    requires Text.Split(path, '.')[0] !in o
    ensures Get(Update(base, JObj(o)), path, default) == Get(base, path, default)
  {
    GetDependsOnNamespace(Update(base, JObj(o)), base, path, default);
  }

  /** A setting the converter reads: the path segments whose dotted form it
      passes to `get`, and the fallback its call site gives. */
  datatype Setting = Setting(path: seq<string>, fallback: Json)

  const KillOrphaned := Setting(["cleanup", "kill_orphaned_excel"], JBool(true))
  const MaxExcelProcesses := Setting(["cleanup", "max_excel_processes"], JInt(5))
  const Visible := Setting(["excel", "visible"], JBool(false))
  const DisplayAlerts := Setting(["excel", "display_alerts"], JBool(false))
  const RetryAttempts := Setting(["excel", "retry_attempts"], JInt(3))
  const RetryDelay := Setting(["excel", "retry_delay"], JInt(5))
  const DefaultOrientation := Setting(["pdf", "default_orientation"], JStr("auto"))
  const FitToWidth := Setting(["pdf", "fit_to_width"], JBool(true))
  const MarginsCm := Setting(["pdf", "margins_cm"], JReal(1.0))
  const DefaultQuality := Setting(["pdf", "default_quality"], JInt(600))
  const LogLevel := Setting(["rpa", "log_level"], JStr("INFO"))

  /** The setting `rpa.exit_codes.<name>` read with the given fallback. */
  function ExitCodeSetting(name: string, fallback: int): Setting
  {
    Setting(["rpa", "exit_codes", name], JInt(fallback))
  }

  /** The text of a setting's path, as written at its call site. */
  function PathText(s: Setting): string
  {
    Text.Join(s.path, '.')
  }

  /** Reads a setting segment by segment. */
  function Read(cfg: Namespaces, s: Setting): Json
  {
    match Resolve(JObj(cfg), s.path)
    case Some(v) => v
    case None => s.fallback
  }

  /** Reading a setting is `get` on its dotted path text, whenever no
      segment holds a dot itself. */
  lemma ReadIsGet(cfg: Namespaces, s: Setting)
    requires |s.path| >= 1
    requires forall i :: 0 <= i < |s.path| ==> '.' !in s.path[i]
    ensures Read(cfg, s) == Get(cfg, PathText(s), s.fallback)
  {
    Text.SplitJoin(s.path, '.');
  }

  /** The fallbacks written at the call sites equal the built-in defaults,
      so a setting that a shallow override left unresolvable still reads as
      its built-in value. */
  lemma CleanupAndExcelFallbacks()
    ensures Read(Defaults(), KillOrphaned) == KillOrphaned.fallback
    ensures Read(Defaults(), MaxExcelProcesses) == MaxExcelProcesses.fallback
    ensures Read(Defaults(), Visible) == Visible.fallback
    ensures Read(Defaults(), DisplayAlerts) == DisplayAlerts.fallback
    ensures Read(Defaults(), RetryAttempts) == RetryAttempts.fallback
    ensures Read(Defaults(), RetryDelay) == RetryDelay.fallback
  {
  }

  /** (continued) */
  lemma PdfAndRpaFallbacks()
    ensures Read(Defaults(), DefaultOrientation) == DefaultOrientation.fallback
    ensures Read(Defaults(), FitToWidth) == FitToWidth.fallback
    ensures Read(Defaults(), MarginsCm) == MarginsCm.fallback
    ensures Read(Defaults(), DefaultQuality) == DefaultQuality.fallback
    ensures Read(Defaults(), LogLevel) == LogLevel.fallback
  {
  }

  /** (continued) */
  lemma ExitCodeFallbacks()
    ensures Read(Defaults(), ExitCodeSetting("success", 0)) == JInt(0)
    ensures Read(Defaults(), ExitCodeSetting("file_not_found", 1)) == JInt(1)
    ensures Read(Defaults(), ExitCodeSetting("timeout", 3)) == JInt(3)
    ensures Read(Defaults(), ExitCodeSetting("permission_error", 4)) == JInt(4)
    ensures Read(Defaults(), ExitCodeSetting("general_error", 99)) == JInt(99)
  {
  }

  /** An override file holding `{"pdf": {"fit_to_width": false}}`. */
  function FitOnlyOverride(): map<string, Json>
  {
    map["pdf" := JObj(map["fit_to_width" := JBool(false)])]
  }

  /** That override replaces the whole "pdf" namespace: every other key in
      it, such as `margins_cm` (1.0 in the built-in defaults), now falls back
      to the caller's default, whatever the defaults held. */
  lemma NestedOverrideDropsSiblings(base: Namespaces, key: string, fallback: Json)
    requires '.' !in key && key != "fit_to_width"
    ensures Get(Update(base, JObj(FitOnlyOverride())), "pdf" + "." + key, fallback) == fallback
  {
    Text.SplitNoSeparator(key, '.');
    OverrideReplacesNamespace(base, FitOnlyOverride(), "pdf", key, fallback);
  }

  /** An array element `dict.update` applies: a two-item array whose key is
      a string. */
  predicate IsStringPair(j: Json)
  {
    j.JArr? && |j.items| == 2 && j.items[0].JStr?
  }

  function PairKey(j: Json): string
    requires IsStringPair(j)
  {
    j.items[0].s
  }

  /** An array element on which `dict.update` raises: neither a two-item
      array nor a two-character string, or a pair with an unhashable key. */
  predicate StopsUpdate(j: Json)
  {
    match j
    case JArr(pair) => |pair| != 2 || pair[0].JArr? || pair[0].JObj?
    case JStr(text) => |text| != 2
    case _ => true
  }

  /** A document that is an array is applied pair by pair, and a bad element
      stops the update without undoing the pairs before it: loading reports
      an error, yet the settings are those the good pairs made, and nothing
      after the bad element is applied. */
  lemma ArrayDocumentAppliesPairsBeforeFailing(cfg: Namespaces, good: seq<Json>, bad: Json, rest: seq<Json>)
    requires forall j :: 0 <= j < |good| ==> IsStringPair(good[j])
    requires StopsUpdate(bad)
    ensures Update(cfg, JArr(good + [bad] + rest)) == UpdatePairs(cfg, good)
  {
    UpdateStopsAtBadElement(cfg, good, bad, rest);
  }

  lemma {:induction false} UpdateStopsAtBadElement(cfg: Namespaces, good: seq<Json>, bad: Json, rest: seq<Json>)
    requires forall j :: 0 <= j < |good| ==> IsStringPair(good[j])
    requires StopsUpdate(bad)
    ensures UpdatePairs(cfg, good + [bad] + rest) == UpdatePairs(cfg, good)
    decreases |good|
  {
    if |good| == 0 {
      assert good + [bad] + rest == [bad] + rest;
    } else {
      var p := good[0];
      assert (good + [bad] + rest)[0] == p;
      assert (good + [bad] + rest)[1..] == good[1..] + [bad] + rest;
      UpdateStopsAtBadElement(cfg[PairKey(p) := p.items[1]], good[1..], bad, rest);
    }
  }

  /** Applying string pairs in order: the last pair for a key decides its
      namespace. */
  lemma {:induction false} LastPairWins(cfg: Namespaces, good: seq<Json>)
    requires forall j :: 0 <= j < |good| ==> IsStringPair(good[j])
    ensures forall j :: 0 <= j < |good| && LastForKey(good, j) ==>
      PairKey(good[j]) in UpdatePairs(cfg, good) && UpdatePairs(cfg, good)[PairKey(good[j])] == good[j].items[1]
    decreases |good|
  {
    if |good| > 0 {
      var p := good[0];
      var cfg1 := cfg[PairKey(p) := p.items[1]];
      var tail := good[1..];
      LastPairWins(cfg1, tail);
      assert UpdatePairs(cfg, good) == UpdatePairs(cfg1, tail);
      forall j | 0 <= j < |good| && LastForKey(good, j)
        ensures PairKey(good[j]) in UpdatePairs(cfg, good) && UpdatePairs(cfg, good)[PairKey(good[j])] == good[j].items[1]
      {
        if j == 0 {
          assert NoPairFor(tail, PairKey(p)) by {
            forall m | 0 <= m < |tail| ensures PairKey(tail[m]) != PairKey(p) {
              assert tail[m] == good[m + 1];
            }
          }
          UnnamedKeepsValue(cfg1, tail);
        } else {
          assert good[j] == tail[j - 1];
          assert LastForKey(tail, j - 1) by {
            forall m | j - 1 < m < |tail| ensures PairKey(tail[m]) != PairKey(tail[j - 1]) {
              assert tail[m] == good[m + 1];
            }
          }
        }
      }
    }
  }

  /** A namespace no pair names keeps its value. */
  lemma {:induction false} UnnamedKeepsValue(cfg: Namespaces, good: seq<Json>)
    requires forall j :: 0 <= j < |good| ==> IsStringPair(good[j])
    ensures forall k :: k in cfg && NoPairFor(good, k) ==>
      k in UpdatePairs(cfg, good) && UpdatePairs(cfg, good)[k] == cfg[k]
    decreases |good|
  {
    if |good| > 0 {
      var p := good[0];
      var cfg1 := cfg[PairKey(p) := p.items[1]];
      var tail := good[1..];
      UnnamedKeepsValue(cfg1, tail);
      assert UpdatePairs(cfg, good) == UpdatePairs(cfg1, tail);
      forall k | k in cfg && NoPairFor(good, k)
        ensures k in UpdatePairs(cfg, good) && UpdatePairs(cfg, good)[k] == cfg[k]
      {
        assert PairKey(good[0]) != k;
        assert NoPairFor(tail, k) by {
          forall m | 0 <= m < |tail| ensures PairKey(tail[m]) != k {
            assert tail[m] == good[m + 1];
          }
        }
      }
    }
  }

  /** No later pair has the same key as pair `j`. */
  predicate LastForKey(good: seq<Json>, j: int)
    requires 0 <= j < |good| && forall m :: 0 <= m < |good| ==> IsStringPair(good[m])
  {
    forall m :: j < m < |good| ==> PairKey(good[m]) != PairKey(good[j])
  }

  /** No pair names key `k`. */
  predicate NoPairFor(good: seq<Json>, k: string)
    requires forall m :: 0 <= m < |good| ==> IsStringPair(good[m])
  {
    forall m :: 0 <= m < |good| ==> PairKey(good[m]) != k
  }
}

=== FILE: converter.dfy ===
/** `ExcelToPdfConverter.convert_excel_to_pdf`: validation, output path,
    disk space, lazy initialisation, the open loop, page setup of every
    sheet, export, and the handlers that turn any failure into `sys.exit`
    with a configured code; the `finally` clause closes an opened workbook.
    Everything the file system, psutil and Excel report is an input. */
module Converter {
  import opened PyValues
  import Config
  import Paths
  import ProcessCleanup
  import PageSetup
  import OpenRetry
  import ExitCodes
  import Session
  import Messages

  /** The free space below which the conversion refuses to start: 100 MiB. */
  const MinFreeBytes := 100 * 1024 * 1024

  /** What `validate_file_permissions` finds: the file exists, its first byte
      can be read, and a probe file can be written next to it. */
  datatype Validation = Validation(found: bool, readable: bool, folderWritable: bool)

  /** The check returns False on any failure, never raising. */
  predicate Passes(v: Validation)
  {
    v.found && v.readable && v.folderWritable
  }

  /** `psutil.disk_usage(...)` for the output folder: its free bytes, or
      the exception it raised (a missing folder raises FileNotFoundError). */
  datatype DiskProbe = FreeBytes(n: int) | DiskRaises(e: Exc)

  /** Everything outside the converter that one conversion observes. */
  datatype FileEnv = FileEnv(
    validation: Validation,
    disk: DiskProbe,
    init: Session.InitOutcome,
    processes: seq<ProcessCleanup.Proc>,
    kill: ProcessCleanup.Proc -> bool,
    open: nat -> OpenRetry.OpenOutcome,
    sheets: seq<PageSetup.Sheet>,
    toPoints: Json -> Result<real>,
    exportError: Option<Exc>,
    written: bool)

  function NotFoundMessage(path: string): string
  {
    "Archivo no encontrado o sin permisos: " + path
  }

  /** The TypeError `os.path.abspath` and `Path` raise for a non-path. */
  function PathTypeError(j: Json): Exc
  {
    Exc(OtherError, "expected str, bytes or os.PathLike object, not " + TypeName(j))
  }

  /** The ValueError `with_suffix` raises for a path with an empty name. */
  function EmptyNameError(path: string): Exc
  {
    Exc(OtherError, "WindowsPath('" + Paths.AsPosix(path) + "') has an empty name")
  }

  /** The output path: the requested one, or the input with its suffix
      replaced by ".pdf", made absolute either way. */
  function Target(abs: string, requested: Option<string>, absPath: string -> string): (r: Result<string>)
    ensures requested.Some? ==> r == Ok(absPath(requested.value))
    ensures requested.None? && Paths.BaseName(abs) == "" ==> r == Err(EmptyNameError(abs))
    ensures requested.None? && Paths.BaseName(abs) != "" ==>
      r == Ok(absPath(Paths.WithPdfSuffix(abs).value))
  {
    match requested
    case Some(t) => Ok(absPath(t))
    case None =>
      match Paths.WithPdfSuffix(abs)
      case None => Err(EmptyNameError(abs))
      case Some(q) => Ok(absPath(q))
  }

  /** The disk-space guard. */
  function DiskError(d: DiskProbe): (r: Option<Exc>)
    ensures d.FreeBytes? ==> (r.Some? <==> d.n < MinFreeBytes)
    ensures d.DiskRaises? ==> r == Some(d.e)
  {
    match d
    case FreeBytes(n) => if n < MinFreeBytes then Some(Exc(OtherError, Messages.LowDisk)) else None
    case DiskRaises(e) => Some(e)
  }

  /** What `self.excel.Workbooks.Open` does on each attempt: the
      application's answer, or an AttributeError when there is none. */
  function Opener(s: Session.Session, open: nat -> OpenRetry.OpenOutcome): (r: nat -> OpenRetry.OpenOutcome)
    ensures s.hasExcel ==> r == open
    ensures !s.hasExcel ==> forall k :: r(k) == OpenRetry.OpenRaises(Exc(OtherError, Messages.NoApplication))
  {
    if s.hasExcel then open else (k: nat) => OpenRetry.OpenRaises(Exc(OtherError, Messages.NoApplication))
  }

  /** How a conversion ends: it returns the PDF path, or a handler calls
      `sys.exit` with the configured code, raising SystemExit. */
  datatype Outcome = Returned(pdf: string) | Exited(code: Json, cause: Exc)

  /** One conversion: its outcome, the converter's flags afterwards, the
      initialisation and open loop it ran (if it got that far), the page
      setups it applied, and whether the `finally` clause closed a workbook. */
  datatype Run = Run(
    outcome: Outcome,
    session: Session.Session,
    init: Option<Session.InitRun>,
    open: Option<OpenRetry.OpenRun>,
    layouts: Option<seq<PageSetup.Layout>>,
    closedWorkbook: bool)

  /** A handler's `sys.exit`; the workbook is closed if the loop opened one. */
  function Fail(cfg: Config.Namespaces, e: Exc, s: Session.Session, init: Option<Session.InitRun>,
                open: Option<OpenRetry.OpenRun>): Run
  {
    Run(Exited(ExitCodes.ExitCode(cfg, ExitCodes.Classify(e)), e), s, init, open, None,
        open.Some? && open.value.end == OpenRetry.Opened)
  }

  /** Whether every step before initialisation succeeds for this input. */
  predicate PassesChecks(input: Json, requested: Option<string>, env: FileEnv, absPath: string -> string)
  {
    && input.JStr?
    && Passes(env.validation)
    && Target(absPath(input.s), requested, absPath).Ok?
    && DiskError(env.disk).None?
  }

  function Convert(cfg: Config.Namespaces, s: Session.Session, input: Json, requested: Option<string>,
                   env: FileEnv, absPath: string -> string): (r: Run)
    // every failure exits with the code its handler reads
    ensures r.outcome.Exited? ==> r.outcome.code == ExitCodes.ExitCode(cfg, ExitCodes.Classify(r.outcome.cause))
    // a value that is not a path fails before anything else
    ensures !input.JStr? ==> r.outcome.Exited? && r.outcome.cause == PathTypeError(input) && r.session == s
    // failed validation is reported as a missing file and touches nothing
    ensures input.JStr? && !Passes(env.validation) ==>
      && r.outcome == Exited(ExitCodes.ExitCode(cfg, ExitCodes.FileNotFound),
                             Exc(FileNotFoundError, NotFoundMessage(absPath(input.s))))
      && r.session == s && r.init.None? && r.open.None?
    // initialisation is lazy and comes after every check
    ensures r.init.Some? <==> PassesChecks(input, requested, env, absPath) && !s.initialized
    ensures r.init.None? ==> r.session == s
    ensures r.init.Some? ==>
      && r.init.value == Session.Initialize(cfg, s, env.init, env.processes, env.kill)
      && r.session == r.init.value.session
    // the open loop runs only on an initialised converter
    ensures r.open.Some? ==> PassesChecks(input, requested, env, absPath) && r.session.initialized
    // the finally clause closes exactly the workbooks that were opened
    ensures r.closedWorkbook <==> r.open.Some? && r.open.value.end == OpenRetry.Opened
    // a returned path is the derived target, after every step succeeded
    ensures r.outcome.Returned? ==>
      && PassesChecks(input, requested, env, absPath)
      && Target(absPath(input.s), requested, absPath) == Ok(r.outcome.pdf)
      && Session.Live(r.session)
      && r.closedWorkbook
      && PageSetup.ConfigureAll(cfg, env.sheets, env.toPoints).Ok?
      && r.layouts == Some(PageSetup.ConfigureAll(cfg, env.sheets, env.toPoints).value)
      && env.exportError.None? && env.written
  {
    if !input.JStr? then Fail(cfg, PathTypeError(input), s, None, None)
    else
      var abs := absPath(input.s);
      if !Passes(env.validation) then
        Fail(cfg, Exc(FileNotFoundError, NotFoundMessage(abs)), s, None, None)
      else
        match Target(abs, requested, absPath)
        case Err(e) => Fail(cfg, e, s, None, None)
        case Ok(target) =>
          match DiskError(env.disk)
          case Some(e) => Fail(cfg, e, s, None, None)
          case None =>
            var init := if s.initialized then None else Some(Session.Initialize(cfg, s, env.init, env.processes, env.kill));
            var s1 := if init.Some? then init.value.session else s;
            if init.Some? && init.value.raised.Some? then Fail(cfg, init.value.raised.value, s1, init, None)
            else OpenAndExport(cfg, s1, init, target, env)
  }

  /** From the open loop to the end, on an initialised converter. */
  function OpenAndExport(cfg: Config.Namespaces, s: Session.Session, init: Option<Session.InitRun>,
                         target: string, env: FileEnv): (r: Run)
    requires s.initialized
    ensures r.session == s && r.init == init && r.open.Some?
    ensures OpenRetry.AttemptCount(Config.Read(cfg, Config.RetryAttempts)).Ok? ==>
      r.open.value == OpenRetry.Retry(OpenRetry.AttemptCount(Config.Read(cfg, Config.RetryAttempts)).value,
                                      Config.Read(cfg, Config.RetryDelay), Opener(s, env.open))
    ensures OpenRetry.AttemptCount(Config.Read(cfg, Config.RetryAttempts)).Err? ==>
      && r.open.value == OpenRetry.OpenRun(0, 0, OpenRetry.NoWorkbook)
      && r.outcome == Fail(cfg, OpenRetry.AttemptCount(Config.Read(cfg, Config.RetryAttempts)).exc, s, init, r.open).outcome
    ensures r.outcome.Exited? ==> r.outcome.code == ExitCodes.ExitCode(cfg, ExitCodes.Classify(r.outcome.cause))
    ensures r.closedWorkbook <==> r.open.value.end == OpenRetry.Opened
    ensures r.outcome.Returned? ==>
      && r.outcome.pdf == target
      && s.hasExcel
      && PageSetup.ConfigureAll(cfg, env.sheets, env.toPoints).Ok?
      && r.layouts == Some(PageSetup.ConfigureAll(cfg, env.sheets, env.toPoints).value)
      && env.exportError.None? && env.written
  {
    match OpenRetry.AttemptCount(Config.Read(cfg, Config.RetryAttempts))
    case Err(e) => Fail(cfg, e, s, init, Some(OpenRetry.OpenRun(0, 0, OpenRetry.NoWorkbook)))
    case Ok(n) =>
      var run := OpenRetry.Retry(n, Config.Read(cfg, Config.RetryDelay), Opener(s, env.open));
      match run.end
      case NoWorkbook => Fail(cfg, Exc(OtherError, Messages.NoWorkbook), s, init, Some(run))
      case Raised(e) => Fail(cfg, e, s, init, Some(run))
      case Opened =>
        match PageSetup.ConfigureAll(cfg, env.sheets, env.toPoints)
        case Err(e) => Fail(cfg, e, s, init, Some(run))
        case Ok(layouts) =>
          if env.exportError.Some? then Fail(cfg, env.exportError.value, s, init, Some(run))
          else if !env.written then Fail(cfg, Exc(OtherError, Messages.NotWritten), s, init, Some(run))
          else Run(Returned(target), s, init, Some(run), Some(layouts), true)
  }

  /** The converse of what `Convert` ensures of a returned path: when every
      check passes, the converter is (or becomes) ready, the first open
      attempt succeeds, every sheet is set up and the export writes the
      file, the conversion returns its target, with the workbook opened
      once, closed again, and the converter still live. */
  lemma SuccessReturnsTarget(cfg: Config.Namespaces, s: Session.Session, path: string, requested: Option<string>,
                             env: FileEnv, absPath: string -> string)
    requires PassesChecks(JStr(path), requested, env, absPath)
    requires if s.initialized then s.hasExcel else env.init == Session.Ready
    requires OpenRetry.AttemptCount(Config.Read(cfg, Config.RetryAttempts)).Ok?
    requires OpenRetry.AttemptCount(Config.Read(cfg, Config.RetryAttempts)).value > 0
    requires env.open(0) == OpenRetry.Opens
    requires PageSetup.ConfigureAll(cfg, env.sheets, env.toPoints).Ok?
    requires env.exportError.None? && env.written
    ensures var r := Convert(cfg, s, JStr(path), requested, env, absPath);
      && r.outcome == Returned(Target(absPath(path), requested, absPath).value)
      && r.open == Some(OpenRetry.OpenRun(1, 0, OpenRetry.Opened))
      && r.layouts == Some(PageSetup.ConfigureAll(cfg, env.sheets, env.toPoints).value)
      && r.closedWorkbook
      && Session.Live(r.session)
  {
  }

  /** After a close whose `CoUninitialize` raised, the converter is still
      marked initialised but has no application: a later conversion skips
      initialisation, no open attempt can succeed, and it exits. */
  lemma FailedUninitializeBreaksLaterConversions(cfg: Config.Namespaces, s: Session.Session, path: string,
                                                 requested: Option<string>, env: FileEnv, absPath: string -> string)
    requires Session.Live(s)
    requires PassesChecks(JStr(path), requested, env, absPath)
    ensures var r := Convert(cfg, Session.Close(s, Session.UninitializeRaises), JStr(path), requested, env, absPath);
      && r.init.None?
      && r.outcome.Exited?
      && !r.closedWorkbook
      && (forall k :: Opener(r.session, env.open)(k) == OpenRetry.OpenRaises(Exc(OtherError, Messages.NoApplication)))
  {
  }

  /** Neither fixed message below can reach the timeout handler. */
  lemma LowDiskMessageIsGeneral()
    ensures ExitCodes.Classify(Exc(OtherError, Messages.LowDisk)) == ExitCodes.General
  {
    Messages.LowDiskHasNoTi();
    ExitCodes.GeneralWithoutTi(Messages.LowDisk);
  }

  lemma NoWorkbookMessageIsGeneral()
    ensures ExitCodes.Classify(Exc(OtherError, Messages.NoWorkbook)) == ExitCodes.General
  {
    Messages.NoWorkbookHasNoTi();
    ExitCodes.GeneralWithoutTi(Messages.NoWorkbook);
  }

  /** A file that exists but cannot be read, or whose folder cannot be
      written, is reported as not found: with the built-in codes the
      process ends with status 1, never the permission status 4. */
  lemma ValidationFailureExitsWithOne(s: Session.Session, path: string, requested: Option<string>,
                                      env: FileEnv, absPath: string -> string)
    requires !Passes(env.validation)
    ensures var r := Convert(Config.Defaults(), s, JStr(path), requested, env, absPath);
      && r.outcome.Exited?
      && r.outcome.cause.kind == FileNotFoundError
      && ExitCodes.ExitStatus(r.outcome.code) == 1
  {
    ExitCodes.DefaultStatuses();
  }

  /** Too little free space is a general error, raised before Excel is
      started. */
  lemma LowDiskIsGeneralError(cfg: Config.Namespaces, s: Session.Session, path: string, requested: Option<string>,
                              env: FileEnv, absPath: string -> string)
    requires Passes(env.validation) && Target(absPath(path), requested, absPath).Ok?
    requires env.disk.FreeBytes? && env.disk.n < MinFreeBytes
    ensures var r := Convert(cfg, s, JStr(path), requested, env, absPath);
      && r.outcome == Exited(ExitCodes.ExitCode(cfg, ExitCodes.General), Exc(OtherError, Messages.LowDisk))
      && r.init.None? && r.session == s
  {
    LowDiskMessageIsGeneral();
  }

  /** A non-positive attempt count opens nothing; reading the missing
      workbook's name then fails as a general error and nothing is closed. */
  lemma NoAttemptsIsGeneralError(cfg: Config.Namespaces, s: Session.Session, path: string, requested: Option<string>,
                                 env: FileEnv, absPath: string -> string)
    requires PassesChecks(JStr(path), requested, env, absPath)
    requires s.initialized || env.init == Session.Ready
    requires OpenRetry.AttemptCount(Config.Read(cfg, Config.RetryAttempts)).Ok?
    requires OpenRetry.AttemptCount(Config.Read(cfg, Config.RetryAttempts)).value <= 0
    ensures var r := Convert(cfg, s, JStr(path), requested, env, absPath);
      && r.outcome == Exited(ExitCodes.ExitCode(cfg, ExitCodes.General), Exc(OtherError, Messages.NoWorkbook))
      && r.open == Some(OpenRetry.OpenRun(0, 0, OpenRetry.NoWorkbook))
      && !r.closedWorkbook
  {
    NoWorkbookMessageIsGeneral();
  }

  /** Under the built-in settings the workbook is opened at most three
      times, with at most two sleeps. */
  lemma DefaultsOpenAtMostThreeTimes(s: Session.Session, input: Json, requested: Option<string>,
                                     env: FileEnv, absPath: string -> string)
    ensures var r := Convert(Config.Defaults(), s, input, requested, env, absPath);
      r.open.Some? ==> r.open.value.calls <= 3 && r.open.value.sleeps <= 2
  {
    Config.CleanupAndExcelFallbacks();
  }

  /** Without a requested path the PDF goes next to the input: same folder,
      same stem, suffix ".pdf" (before `abspath`). */
  lemma DefaultOutputReplacesSuffix(cfg: Config.Namespaces, s: Session.Session, path: string,
                                    env: FileEnv, absPath: string -> string)
    requires Paths.BaseName(absPath(path)) != ""
    ensures var abs := absPath(path);
      exists q ::
        && Target(abs, None, absPath) == Ok(absPath(q))
        && (Convert(cfg, s, JStr(path), None, env, absPath).outcome.Returned? ==>
              Convert(cfg, s, JStr(path), None, env, absPath).outcome.pdf == absPath(q))
        && Paths.DirPart(q) == Paths.DirPart(abs)
        && Paths.BaseName(q) == Paths.PdfName(abs)
        && Paths.Suffix(Paths.BaseName(q)) == ".pdf"
        && Paths.Stem(Paths.BaseName(q)) == Paths.Stem(Paths.BaseName(abs))
  {
    var abs := absPath(path);
    Paths.WithPdfSuffixSpec(abs);
    var q := Paths.WithPdfSuffix(abs).value;
    assert Target(abs, None, absPath) == Ok(absPath(q));
  }
}

=== FILE: exit_codes.dfy ===
/** How a failed conversion is turned into a process exit: the handler
    chosen for the exception, the configured exit code it passes to
    `sys.exit`, and what `sys.exit` makes of that value. */
module ExitCodes {
  import opened PyValues
  import Text
  import Config

  /** The four handlers of `convert_excel_to_pdf`, in the order tried. */
  datatype Category = FileNotFound | PermissionDenied | TimedOut | General

  /** `except FileNotFoundError`, `except PermissionError`, then
      `except Exception` split on whether the text mentions a timeout. */
  function Classify(e: Exc): (c: Category)
    ensures c == FileNotFound <==> e.kind == FileNotFoundError
    ensures c == PermissionDenied <==> e.kind == PermissionError
    ensures c == TimedOut <==> e.kind == OtherError && Text.Contains(Text.Lower(e.msg), "timeout")
    ensures c == General <==> e.kind == OtherError && !Text.Contains(Text.Lower(e.msg), "timeout")
  {
    match e.kind
    case FileNotFoundError => FileNotFound
    case PermissionError => PermissionDenied
    case OtherError => if Text.Contains(Text.Lower(e.msg), "timeout") then TimedOut else General
  }

  /** The `rpa.exit_codes` setting each handler reads, with its fallback. */
  function CodeSetting(c: Category): Config.Setting
  {
    match c
    case FileNotFound => Config.ExitCodeSetting("file_not_found", 1)
    case PermissionDenied => Config.ExitCodeSetting("permission_error", 4)
    case TimedOut => Config.ExitCodeSetting("timeout", 3)
    case General => Config.ExitCodeSetting("general_error", 99)
  }

  /** The value a handler passes to `sys.exit`. */
  function ExitCode(cfg: Config.Namespaces, c: Category): Json
  {
    Config.Read(cfg, CodeSetting(c))
  }

  /** The value the successful single-file run passes to `sys.exit`. */
  function SuccessCode(cfg: Config.Namespaces): Json
  {
    Config.Read(cfg, Config.ExitCodeSetting("success", 0))
  }

  /** The status `sys.exit(code)` ends the process with: None is 0, an int
      is itself (a bool is 0 or 1), anything else is printed and gives 1. */
  function ExitStatus(code: Json): (status: int)
    ensures code.JInt? ==> status == code.i
    ensures code == JNull ==> status == 0
    ensures code.JBool? ==> status == if code.b then 1 else 0
    ensures !code.JInt? && !code.JBool? && code != JNull ==> status == 1
  {
    match code
    case JNull => 0
    case JInt(n) => n
    case JBool(b) => if b then 1 else 0
    case _ => 1
  }

  /** Under the built-in settings the four handlers exit with 1, 4, 3 and 99
      and success with 0: five different statuses. */
  lemma DefaultStatuses()
    ensures ExitStatus(ExitCode(Config.Defaults(), FileNotFound)) == 1
    ensures ExitStatus(ExitCode(Config.Defaults(), PermissionDenied)) == 4
    ensures ExitStatus(ExitCode(Config.Defaults(), TimedOut)) == 3
    ensures ExitStatus(ExitCode(Config.Defaults(), General)) == 99
    ensures ExitStatus(SuccessCode(Config.Defaults())) == 0
  {
    Config.ExitCodeFallbacks();
  }

  /** The timeout handler is chosen by text alone, in any letter case. */
  lemma TimeoutByText(prefix: string, suffix: string)
    ensures Classify(Exc(OtherError, prefix + "TimeOut" + suffix)) == TimedOut
  {
    var m := prefix + "TimeOut" + suffix;
    var low := Text.Lower(m);
    assert low[|prefix|..|prefix| + 7] == "timeout";
    assert Text.OccursAt(low, "timeout", |prefix|);
  }

  /** `except FileNotFoundError` is tried first: a file-not-found exception
      exits with the configured `file_not_found` code whatever its text,
      even when the text mentions a timeout. */
  lemma NotFoundBeatsTimeoutText(cfg: Config.Namespaces, msg: string)
    ensures Classify(Exc(FileNotFoundError, msg)) == FileNotFound
    ensures ExitCode(cfg, Classify(Exc(FileNotFoundError, msg))) ==
      Config.Read(cfg, Config.ExitCodeSetting("file_not_found", 1))
  {
  }

  /** Text in which no 't' is followed by an 'i' (after lower-casing) can
      only reach the general handler. */
  lemma GeneralWithoutTi(msg: string)
    requires Text.NoTi(Text.Lower(msg))
    ensures Classify(Exc(OtherError, msg)) == General
  {
    Text.NoTiNoTimeout(Text.Lower(msg));
  }
}

=== FILE: messages.dfy ===
/** The fixed texts of the exceptions the converter raises itself, and the
    fact that none of them can be mistaken for a timeout. */
module Messages {
  import Text

  const LowDisk := "Espacio insuficiente en disco"
  const NotWritten := "PDF no se generó correctamente"

  /** `wb.Name` when the open loop never ran. */
  const NoWorkbook := "'NoneType' object has no attribute 'Name'"

  /** `self.excel.Workbooks` once `close` has dropped the application. */
  const NoApplication := "'NoneType' object has no attribute 'Workbooks'"

  lemma LowDiskHasNoTi()
    ensures Text.NoTi(Text.Lower(LowDisk))
  {
    var low := Text.Lower(LowDisk);
    forall i | 0 <= i < |low| - 1 ensures !(low[i] == 't' && low[i + 1] == 'i') {
      assert low[i] == Text.LowerChar(LowDisk[i]);
    }
  }

  lemma NoWorkbookHasNoTi()
    ensures Text.NoTi(Text.Lower(NoWorkbook))
  {
    var low := Text.Lower(NoWorkbook);
    forall i | 0 <= i < |low| - 1 ensures !(low[i] == 't' && low[i + 1] == 'i') {
      assert low[i] == Text.LowerChar(NoWorkbook[i]);
    }
  }
}

=== FILE: open_retry.dfy ===
/** The workbook-open loop of `convert_excel_to_pdf`: up to `retry_attempts`
    calls to `Workbooks.Open`, stopping at the first that succeeds, with a
    sleep of `retry_delay` seconds after every failed attempt but the last,
    which re-raises. Each call's outcome is an input, indexed by attempt. */
module OpenRetry {
  import opened PyValues

  /** What one `Workbooks.Open` call does. */
  datatype OpenOutcome = Opens | OpenRaises(e: Exc)

  /** How the loop ends: with a workbook, with an exception, or, when the
      range was empty, with `wb` still `None`. */
  datatype OpenEnd = Opened | Raised(e: Exc) | NoWorkbook

  /** The calls made, the sleeps completed, and how the loop ended. */
  datatype OpenRun = OpenRun(calls: nat, sleeps: nat, end: OpenEnd)

  /** `range(retry_attempts)`: an int, or a bool read as 0 or 1; any other
      value raises TypeError. */
  function AttemptCount(attempts: Json): (r: Result<int>)
    ensures attempts.JInt? ==> r == Ok(attempts.i)
    ensures !attempts.JInt? && !attempts.JBool? ==> r == Err(NotAnInteger(attempts))
  {
    match attempts
    case JInt(n) => Ok(n)
    case JBool(b) => Ok(if b then 1 else 0)
    case _ => Err(NotAnInteger(attempts))
  }

  /** `time.sleep` first converts the delay to a signed 64-bit count of
      nanoseconds; a delay whose count does not fit raises OverflowError. */
  const NanosPerSecond := 1_000_000_000
  const MaxNanos := 0x7FFF_FFFF_FFFF_FFFF

  predicate NanosFit(x: real)
  {
    -(MaxNanos + 1) as real <= x * NanosPerSecond as real < (MaxNanos + 1) as real
  }

  const TooLarge := Exc(OtherError, "timestamp too large to convert to C _PyTime_t")
  const NegativeSleep := Exc(OtherError, "sleep length must be non-negative")

  /** What `time.sleep(delay)` raises, if anything: OverflowError for a
      delay beyond the nanosecond range, then ValueError for a negative one,
      and TypeError for a value that is not a number. */
  function SleepError(delay: Json): (r: Option<Exc>)
    // sleeping works exactly for a number from zero up to the range's end
    ensures r.None? <==>
      || delay.JBool?
      || (delay.JInt? && 0 <= delay.i && delay.i * NanosPerSecond <= MaxNanos)
      || (delay.JReal? && 0.0 <= delay.r && NanosFit(delay.r))
    ensures r == Some(NegativeSleep) <==>
      || (delay.JInt? && delay.i < 0 && -(MaxNanos + 1) <= delay.i * NanosPerSecond)
      || (delay.JReal? && delay.r < 0.0 && NanosFit(delay.r))
    ensures !delay.JInt? && !delay.JReal? && !delay.JBool? ==> r == Some(NotAnInteger(delay))
  {
    match delay
    case JInt(n) =>
      if n * NanosPerSecond > MaxNanos || n * NanosPerSecond < -(MaxNanos + 1) then Some(TooLarge)
      else if n < 0 then Some(NegativeSleep)
      else None
    case JReal(x) =>
      if !NanosFit(x) then Some(TooLarge)
      else if x < 0.0 then Some(NegativeSleep)
      else None
    case JBool(_) => None
    case _ => Some(NotAnInteger(delay))
  }

  /** The loop from attempt `i` on; `sleepError` is what `time.sleep` raises
      for the configured delay, the same on every attempt. */
  function From(n: int, sleepError: Option<Exc>, outcome: nat -> OpenOutcome, i: nat): (r: OpenRun)
    requires i < n
    ensures i < r.calls <= n && r.sleeps == r.calls - 1
    ensures forall k :: i <= k < r.calls - 1 ==> outcome(k).OpenRaises?
    ensures r.end == Opened <==> outcome(r.calls - 1) == Opens
    ensures r.end != NoWorkbook
    ensures r.end.Raised? && sleepError.None? ==> r.calls == n && r.end.e == outcome(n - 1).e
    ensures r.calls < n ==> r.end == Opened || Some(r.end.e) == sleepError
    decreases n - i
  {
    match outcome(i)
    case Opens => OpenRun(i + 1, i, Opened)
    case OpenRaises(e) =>
      if i < n - 1 then
        match sleepError
        case Some(s) => OpenRun(i + 1, i, Raised(s))
        case None => From(n, sleepError, outcome, i + 1)
      else OpenRun(i + 1, i, Raised(e))
  }

  /** `for attempt in range(n)` with the open, the sleep and the re-raise. */
  function Retry(n: int, delay: Json, outcome: nat -> OpenOutcome): (r: OpenRun)
    ensures n <= 0 <==> r.end == NoWorkbook
    ensures n <= 0 ==> r.calls == 0 && r.sleeps == 0
    ensures n > 0 ==> 1 <= r.calls <= n && r.sleeps == r.calls - 1
    ensures forall k :: 0 <= k < r.calls - 1 ==> outcome(k).OpenRaises?
    ensures r.end == Opened <==> r.calls > 0 && outcome(r.calls - 1) == Opens
    ensures r.end.Raised? && SleepError(delay).None? ==> n > 0 && r.calls == n && r.end.e == outcome(n - 1).e
    ensures 0 < r.calls < n ==> r.end == Opened || Some(r.end.e) == SleepError(delay)
  {
    if n <= 0 then OpenRun(0, 0, NoWorkbook) else From(n, SleepError(delay), outcome, 0)
  }

  /** With a usable delay the loop makes exactly one call past the failures
      before the first success, and ends with the workbook. */
  lemma {:induction false} StopsAtFirstSuccess(n: int, sleepError: Option<Exc>, outcome: nat -> OpenOutcome, k: nat, i: nat)
    requires sleepError.None?
    requires i <= k < n && outcome(k) == Opens
    requires forall j :: i <= j < k ==> outcome(j).OpenRaises?
    ensures From(n, sleepError, outcome, i) == OpenRun(k + 1, k, Opened)
    decreases k - i
  {
    if i < k {
      assert outcome(i).OpenRaises? && i < n - 1;
      assert From(n, sleepError, outcome, i) == From(n, sleepError, outcome, i + 1);
      StopsAtFirstSuccess(n, sleepError, outcome, k, i + 1);
    }
  }

  /** With a usable delay and every attempt failing, all `n` calls are made,
      `n - 1` sleeps separate them, and the last failure is re-raised. */
  lemma {:induction false} ReRaisesLastFailure(n: int, sleepError: Option<Exc>, outcome: nat -> OpenOutcome, i: nat)
    requires sleepError.None?
    requires i < n
    requires forall j :: i <= j < n ==> outcome(j).OpenRaises?
    ensures From(n, sleepError, outcome, i) == OpenRun(n, n - 1, Raised(outcome(n - 1).e))
    decreases n - i
  {
    if i < n - 1 {
      ReRaisesLastFailure(n, sleepError, outcome, i + 1);
    }
  }

  /** A delay `time.sleep` rejects turns the first failure of a multi-attempt
      loop into that sleep's exception: no second call is made. */
  lemma BadDelayEndsAfterOneCall(n: int, delay: Json, outcome: nat -> OpenOutcome)
    requires SleepError(delay).Some? && n > 1 && outcome(0).OpenRaises?
    ensures Retry(n, delay, outcome) == OpenRun(1, 0, Raised(SleepError(delay).value))
  {
  }
}

=== FILE: page_setup.dfy ===
/** `configure_print_settings`: the page-setup values the converter assigns
    to one worksheet before export. The worksheet's used range and current
    print area are inputs; Excel's centimetre-to-point conversion is an
    opaque function that either gives points or raises. */
module PageSetup {
  import opened PyValues
  import Text
  import Config

  /** Excel's orientation constants. */
  const Portrait := 1
  const Landscape := 2

  /** Used columns above this many always ask for landscape. */
  const WideColumns := 10

  /** The header and footer margin, in centimetres. */
  const HeaderFooterCm := 0.5

  /** What the worksheet reports: its used range's column and row counts and
      address, and its current print area. */
  datatype Sheet = Sheet(usedCols: int, usedRows: int, usedAddress: string, printArea: string)

  /** A `FitToPages*` value: a page count, or Python's `False`. */
  datatype Fit = FitPages(n: int) | FitOff

  /** The values assigned to `ws.PageSetup`. */
  datatype Layout = Layout(
    orientation: int,
    zoom: bool,
    fitWide: Fit,
    fitTall: Fit,
    leftMargin: real,
    rightMargin: real,
    topMargin: real,
    bottomMargin: real,
    headerMargin: real,
    footerMargin: real,
    centerHorizontally: bool,
    centerVertically: bool,
    printQuality: Json,
    printArea: string)

  /** The AttributeError text of calling `.lower()` on a configured
      orientation that is not a string; it names the value's type. */
  function NoLowerMessage(setting: Json): string
  {
    "'" + TypeName(setting) + "' object has no attribute 'lower'"
  }

  /** The orientation rule: under the exact string "auto" landscape when the
      used range is wider than tall or wider than ten columns; otherwise
      landscape exactly when the configured text lower-cases to "landscape".
      A configured value that is not a string raises. */
  function Orientation(setting: Json, sheet: Sheet): (r: Result<int>)
    ensures setting == JStr("auto") ==>
      r.Ok? && (r.value == Landscape <==> sheet.usedCols > sheet.usedRows || sheet.usedCols > WideColumns)
    ensures setting.JStr? && setting != JStr("auto") ==>
      r.Ok? && (r.value == Landscape <==> Text.Lower(setting.s) == "landscape")
    ensures r.Ok? ==> r.value == Landscape || r.value == Portrait
    ensures !setting.JStr? <==> r.Err?
    ensures r.Err? ==> r.exc == Exc(OtherError, NoLowerMessage(setting))
  {
    match setting
    case JStr(o) =>
      if o == "auto" then
        Ok(if sheet.usedCols > sheet.usedRows || sheet.usedCols > WideColumns then Landscape else Portrait)
      else
        Ok(if Text.Lower(o) == "landscape" then Landscape else Portrait)
    case _ => Err(Exc(OtherError, NoLowerMessage(setting)))
  }

  /** The page setup of one sheet, or the exception that interrupted it. */
  function Configure(cfg: Config.Namespaces, sheet: Sheet, toPoints: Json -> Result<real>): (r: Result<Layout>)
    ensures r.Ok? ==> Orientation(Config.Read(cfg, Config.DefaultOrientation), sheet) == Ok(r.value.orientation)
    ensures r.Ok? ==>
      && toPoints(Config.Read(cfg, Config.MarginsCm)) == Ok(r.value.leftMargin)
      && r.value.leftMargin == r.value.rightMargin == r.value.topMargin == r.value.bottomMargin
      && toPoints(JReal(HeaderFooterCm)) == Ok(r.value.headerMargin)
      && r.value.headerMargin == r.value.footerMargin
    ensures r.Ok? ==>
      && !r.value.zoom
      && (r.value.fitWide == FitPages(1) <==> Truthy(Config.Read(cfg, Config.FitToWidth)))
      && (r.value.fitWide == FitOff <==> !Truthy(Config.Read(cfg, Config.FitToWidth)))
      && r.value.fitTall == FitOff
      && r.value.centerHorizontally && !r.value.centerVertically
      && r.value.printQuality == Config.Read(cfg, Config.DefaultQuality)
    ensures r.Ok? ==>
      r.value.printArea == (if sheet.printArea == "" then sheet.usedAddress else sheet.printArea)
    ensures r.Err? <==>
      || Orientation(Config.Read(cfg, Config.DefaultOrientation), sheet).Err?
      || toPoints(Config.Read(cfg, Config.MarginsCm)).Err?
      || toPoints(JReal(HeaderFooterCm)).Err?
  {
    match Orientation(Config.Read(cfg, Config.DefaultOrientation), sheet)
    case Err(e) => Err(e)
    case Ok(orientation) =>
      var fitWide := if Truthy(Config.Read(cfg, Config.FitToWidth)) then FitPages(1) else FitOff;
      match toPoints(Config.Read(cfg, Config.MarginsCm))
      case Err(e) => Err(e)
      case Ok(margin) =>
        match toPoints(JReal(HeaderFooterCm))
        case Err(e) => Err(e)
        case Ok(headerFooter) =>
          var area := if sheet.printArea == "" then sheet.usedAddress else sheet.printArea;
          Ok(Layout(orientation, false, fitWide, FitOff, margin, margin, margin, margin,
                    headerFooter, headerFooter, true, false,
                    Config.Read(cfg, Config.DefaultQuality), area))
  }

  /** Every sheet of the workbook in order; the first failure stops the loop. */
  function ConfigureAll(cfg: Config.Namespaces, sheets: seq<Sheet>, toPoints: Json -> Result<real>): (r: Result<seq<Layout>>)
    ensures r.Ok? ==> |r.value| == |sheets|
    ensures r.Ok? ==> forall i :: 0 <= i < |sheets| ==> Configure(cfg, sheets[i], toPoints) == Ok(r.value[i])
    ensures r.Err? ==> exists i :: 0 <= i < |sheets| && Configure(cfg, sheets[i], toPoints) == Err(r.exc)
    ensures (forall i :: 0 <= i < |sheets| ==> Configure(cfg, sheets[i], toPoints).Ok?) ==> r.Ok?
  {
    if |sheets| == 0 then Ok([])
    else
      match Configure(cfg, sheets[0], toPoints)
      case Err(e) => Err(e)
      case Ok(layout) =>
        match ConfigureAll(cfg, sheets[1..], toPoints)
        case Err(e) => Err(e)
        case Ok(rest) => Ok([layout] + rest)
  }

  /** Whether, and how, a sheet's setup fails does not depend on the sheet:
      only a non-string orientation or a failing conversion interrupts it. */
  lemma ConfigureErrorIgnoresSheet(cfg: Config.Namespaces, a: Sheet, b: Sheet, toPoints: Json -> Result<real>)
    ensures Configure(cfg, a, toPoints).Err? ==> Configure(cfg, b, toPoints) == Configure(cfg, a, toPoints)
  {
  }

  /** The failure reported is the first sheet's, and every other sheet
      would have failed the same way. */
  lemma ConfigureAllReportsFirstFailure(cfg: Config.Namespaces, sheets: seq<Sheet>, toPoints: Json -> Result<real>)
    ensures var r := ConfigureAll(cfg, sheets, toPoints);
      r.Err? ==> |sheets| > 0 && Configure(cfg, sheets[0], toPoints) == Err(r.exc)
    ensures var r := ConfigureAll(cfg, sheets, toPoints);
      r.Err? ==> forall i :: 0 <= i < |sheets| ==> Configure(cfg, sheets[i], toPoints) == Err(r.exc)
  {
    var r := ConfigureAll(cfg, sheets, toPoints);
    if r.Err? {
      var j :| 0 <= j < |sheets| && Configure(cfg, sheets[j], toPoints) == Err(r.exc);
      forall i | 0 <= i < |sheets| ensures Configure(cfg, sheets[i], toPoints) == Err(r.exc) {
        ConfigureErrorIgnoresSheet(cfg, sheets[j], sheets[i], toPoints);
      }
    }
  }

  /** With the built-in defaults a sheet is laid out automatically: landscape
      for more than ten used columns even when it is taller than wide. */
  lemma DefaultsChooseByShape(sheet: Sheet)
    ensures Orientation(Config.Read(Config.Defaults(), Config.DefaultOrientation), sheet) ==
      Ok(if sheet.usedCols > sheet.usedRows || sheet.usedCols > 10 then Landscape else Portrait)
  {
    Config.PdfAndRpaFallbacks();
  }

  /** The "auto" match is case-sensitive: "Auto" is not automatic and, not
      being "landscape" either, always gives portrait. */
  lemma AutoIsCaseSensitive(sheet: Sheet)
    ensures Orientation(JStr("Auto"), sheet) == Ok(Portrait)
  {
    assert Text.Lower("Auto") == "auto";
  }
}

=== FILE: paths.dfy ===
/** The path arithmetic the converter does with `pathlib` and `os.path`:
    the final component, its suffix and stem, replacing the suffix with
    ".pdf", and joining a directory with a file name. Paths are Windows
    paths, where both '\' and '/' separate components. */
module Paths {
  import opened PyValues

  predicate IsSep(c: char)
  {
    c == '\\' || c == '/'
  }

  predicate NoSep(s: string)
  {
    forall i :: 0 <= i < |s| ==> !IsSep(s[i])
  }

  /** The final component: the text after the last separator. */
  function BaseName(p: string): (r: string)
    ensures NoSep(r)
    ensures |r| <= |p| && r == p[|p| - |r|..]
    ensures |r| < |p| ==> IsSep(p[|p| - |r| - 1])
  {
    if |p| == 0 then ""
    else if IsSep(p[|p| - 1]) then ""
    else
      var init := p[..|p| - 1];
      var b := BaseName(init);
      assert init[|init| - |b|..] + [p[|p| - 1]] == p[|p| - |b| - 1..];
      b + [p[|p| - 1]]
  }

  /** `name.rfind('.')`: the index of the last dot, or -1. */
  function LastDot(name: string): (i: int)
    ensures -1 <= i < |name|
    ensures i >= 0 ==> name[i] == '.'
  {
    if |name| == 0 then -1
    else if name[|name| - 1] == '.' then |name| - 1
    else LastDot(name[..|name| - 1])
  }

  /** Nothing after the found position is a dot; in particular -1 means
      the name has no dot at all. */
  lemma {:induction false} LastDotIsLast(name: string)
    ensures forall j :: LastDot(name) < j < |name| ==> name[j] != '.'
    decreases |name|
  {
    if |name| > 0 && name[|name| - 1] != '.' {
      var init := name[..|name| - 1];
      LastDotIsLast(init);
      assert forall j :: 0 <= j < |init| ==> init[j] == name[j];
    }
  }

  /** Whether the name has a suffix in pathlib's sense: a dot that is
      neither the first nor the last character. */
  predicate HasSuffix(name: string)
  {
    0 < LastDot(name) < |name| - 1
  }

  /** `PurePath.suffix` of a final component. */
  function Suffix(name: string): string
  {
    if HasSuffix(name) then name[LastDot(name)..] else ""
  }

  /** `PurePath.stem` of a final component. */
  function Stem(name: string): string
  {
    if HasSuffix(name) then name[..LastDot(name)] else name
  }

  /** Everything before the final component, separator included. */
  function DirPart(p: string): (d: string)
    ensures d + BaseName(p) == p
  {
    p[..|p| - |BaseName(p)|]
  }

  /** `str(Path(p).with_suffix('.pdf'))`: the final component's suffix is
      dropped and ".pdf" put in its place, or added when there was none; a
      path with an empty final component raises ValueError. */
  function WithPdfSuffix(p: string): (r: Option<string>)
    ensures r.None? <==> BaseName(p) == ""
    ensures r.Some? ==> |r.value| > |DirPart(p)| && r.value[..|DirPart(p)|] == DirPart(p)
  {
    if BaseName(p) == "" then None
    else Some(DirPart(p) + PdfName(p))
  }

  /** `PurePath.as_posix()`: every backslash written as a forward slash. */
  function AsPosix(p: string): (r: string)
    ensures |r| == |p|
    // no backslash is left
    ensures '\\' !in r
    // every other character stays where it was
    ensures forall i :: 0 <= i < |p| && p[i] != '\\' ==> r[i] == p[i]
    // and nothing but a backslash is changed, and then into a slash
    ensures forall i :: 0 <= i < |p| && r[i] != p[i] ==> p[i] == '\\' && r[i] == '/'
  {
    seq(|p|, i requires 0 <= i < |p| => if p[i] == '\\' then '/' else p[i])
  }

  /** Writing a path with forward slashes a second time changes nothing. */
  lemma AsPosixIdempotent(p: string)
    ensures AsPosix(AsPosix(p)) == AsPosix(p)
  {
    var q := AsPosix(p);
    forall i | 0 <= i < |q| ensures AsPosix(q)[i] == q[i] {
      assert q[i] != '\\' by {
        assert q[i] in q;
      }
    }
  }

  /** The output file name for an input path: its stem plus ".pdf". */
  function PdfName(p: string): string
  {
    Stem(BaseName(p)) + ".pdf"
  }

  /** `os.path.join(dir, name)` (and `Path(dir) / name`) for a relative
      file name: a separator is inserted unless `dir` is empty or already
      ends with one. */
  function JoinPath(dir: string, name: string): (r: string)
    // the name comes last
    ensures |r| >= |name| && r[|r| - |name|..] == name
    // after the folder and at most one added separator
    ensures |r| - |name| - |dir| in {0, 1} && r[..|dir|] == dir
    ensures |r| - |name| - |dir| == 1 ==> dir != "" && !IsSep(dir[|dir| - 1]) && IsSep(r[|dir|])
  {
    if dir == "" then name
    else if IsSep(dir[|dir| - 1]) then dir + name
    else dir + "\\" + name
  }

  /** Stem and suffix split a name without losing anything. */
  lemma StemSuffix(name: string)
    ensures Stem(name) + Suffix(name) == name
    ensures Suffix(name) == "" || (Suffix(name)[0] == '.' && |Stem(name)| > 0)
  {
  }

  /** A separator-free name joined to a path is the path's final component. */
  lemma {:induction false} BaseNameAfterSep(dir: string, name: string)
    requires NoSep(name)
    requires |dir| > 0 && IsSep(dir[|dir| - 1])
    ensures BaseName(dir + name) == name
    decreases |name|
  {
    var p := dir + name;
    if |name| == 0 {
      assert p == dir;
    } else {
      var init := name[..|name| - 1];
      assert p[..|p| - 1] == dir + init;
      assert NoSep(init) by {
        forall i | 0 <= i < |init| ensures !IsSep(init[i]) {
          assert init[i] == name[i];
        }
      }
      BaseNameAfterSep(dir, init);
      assert name == init + [name[|name| - 1]];
    }
  }

  lemma {:induction false} BaseNameOfName(name: string)
    requires NoSep(name)
    ensures BaseName(name) == name
    decreases |name|
  {
    if |name| > 0 {
      var init := name[..|name| - 1];
      assert NoSep(init) by {
        forall i | 0 <= i < |init| ensures !IsSep(init[i]) {
          assert init[i] == name[i];
        }
      }
      BaseNameOfName(init);
      assert name == init + [name[|name| - 1]];
    }
  }

  /** Joining puts the name last: the joined path's final component is the
      name. */
  lemma JoinPathBaseName(dir: string, name: string)
    requires NoSep(name)
    ensures BaseName(JoinPath(dir, name)) == name
  {
    if dir == "" {
      BaseNameOfName(name);
    } else if IsSep(dir[|dir| - 1]) {
      BaseNameAfterSep(dir, name);
    } else {
      assert dir + "\\" + name == (dir + "\\") + name;
      BaseNameAfterSep(dir + "\\", name);
    }
  }

  /** Appending text without dots leaves the last dot where it was. */
  lemma {:induction false} LastDotSkipsTail(a: string, b: string)
    requires '.' !in b
    ensures LastDot(a + b) == LastDot(a)
    decreases |b|
  {
    if |b| > 0 {
      var init := b[..|b| - 1];
      assert '.' !in init by {
        assert forall c :: c in init ==> c in b;
      }
      assert (a + b)[..|a + b| - 1] == a + init;
      assert (a + b)[|a + b| - 1] == b[|b| - 1] != '.';
      LastDotSkipsTail(a, init);
    } else {
      assert a + b == a;
    }
  }

  /** A dot followed by dot-free text is the last dot. */
  lemma LastDotOfExtension(stem: string, ext: string)
    requires |ext| > 0 && ext[0] == '.' && '.' !in ext[1..]
    ensures LastDot(stem + ext) == |stem|
  {
    var a := stem + ['.'];
    assert LastDot(a) == |stem| by {
      assert a[|a| - 1] == '.';
    }
    assert stem + ext == a + ext[1..];
    LastDotSkipsTail(a, ext[1..]);
  }

  /** The last dot of `stem + ".pdf"` is the one before "pdf". */
  lemma LastDotOfPdf(stem: string)
    ensures LastDot(stem + ".pdf") == |stem|
  {
    var ext := ".pdf";
    assert ext[1..] == "pdf";
    LastDotOfExtension(stem, ext);
  }

  lemma StemNonEmpty(name: string)
    requires name != ""
    ensures Stem(name) != ""
  {
  }

  /** A non-empty separator-free name with its suffix replaced by ".pdf"
      is still separator-free, and its suffix and stem are ".pdf" and the
      old stem. */
  lemma PdfNameParts(name: string)
    requires NoSep(name) && name != ""
    ensures NoSep(Stem(name) + ".pdf")
    ensures Suffix(Stem(name) + ".pdf") == ".pdf"
    ensures Stem(Stem(name) + ".pdf") == Stem(name)
  {
    StemSuffix(name);
    var stem := Stem(name);
    var pdf := stem + ".pdf";
    assert |stem| > 0 by {
      StemNonEmpty(name);
    }
    assert forall i :: 0 <= i < |stem| ==> stem[i] == name[i];
    assert forall i :: |stem| <= i < |pdf| ==> !IsSep(pdf[i]);
    LastDotOfPdf(stem);
  }

  /** A separator-free name after a directory part is the final component,
      and the directory part is what precedes it. */
  lemma SplitAtName(dir: string, name: string)
    requires NoSep(name)
    requires dir == "" || IsSep(dir[|dir| - 1])
    ensures BaseName(dir + name) == name
    ensures DirPart(dir + name) == dir
  {
    if dir == "" {
      assert dir + name == name;
      BaseNameOfName(name);
    } else {
      BaseNameAfterSep(dir, name);
    }
  }

  /** Replacing the suffix keeps the directory and the stem, and the result
      has suffix ".pdf". */
  lemma WithPdfSuffixSpec(p: string)
    requires BaseName(p) != ""
    ensures WithPdfSuffix(p).Some?
    ensures var q := WithPdfSuffix(p).value;
      && DirPart(q) == DirPart(p)
      && BaseName(q) == PdfName(p)
      && Suffix(BaseName(q)) == ".pdf"
      && Stem(BaseName(q)) == Stem(BaseName(p))
  {
    PdfNameParts(BaseName(p));
    SplitAtName(DirPart(p), PdfName(p));
  }

  /** Joining to one directory keeps different names apart. */
  lemma JoinPathInjective(dir: string, a: string, b: string)
    requires JoinPath(dir, a) == JoinPath(dir, b)
    ensures a == b
  {
    var prefix := if dir == "" then "" else if IsSep(dir[|dir| - 1]) then dir else dir + "\\";
    assert JoinPath(dir, a) == prefix + a && JoinPath(dir, b) == prefix + b;
    assert a == (prefix + a)[|prefix|..];
    assert b == (prefix + b)[|prefix|..];
  }
}

=== FILE: process_cleanup.dfy ===
/** `ExcelProcessManager.kill_orphaned_excel_processes`: which of the
    running processes are taken for Excel, and which of those are killed
    when there are more than the configured cap. Enumerating processes and
    killing them are effects of the operating system; the model takes the
    process list, in enumeration order, and whether each kill succeeds. */
module ProcessCleanup {
  import opened PyValues
  import Text
  import Config

  /** A process as enumerated: its id and its name, which may be unavailable. */
  datatype Proc = Proc(pid: int, name: Option<string>)

  /** A process counts as Excel when its name is available, not empty, and
      contains "excel" once lower-cased. */
  predicate IsExcel(p: Proc)
  {
    p.name.Some? && |p.name.value| > 0 && Text.Contains(Text.Lower(p.name.value), "excel")
  }

  /** The Excel processes, in enumeration order. */
  function SelectExcel(procs: seq<Proc>): (r: seq<Proc>)
    ensures forall p :: p in r <==> p in procs && IsExcel(p)
    ensures |r| <= |procs|
  {
    if |procs| == 0 then []
    else if IsExcel(procs[0]) then [procs[0]] + SelectExcel(procs[1..])
    else SelectExcel(procs[1..])
  }

  /** A process alone is selected exactly when it is Excel. */
  lemma SelectExcelSingle(p: Proc)
    ensures SelectExcel([p]) == if IsExcel(p) then [p] else []
  {
    assert [p][1..] == [];
  }

  /** The selection is an order-preserving filter: selecting from two lists
      one after the other selects from each in turn, so enumeration order
      and repeats are kept. */
  lemma {:induction false} SelectExcelIsFilter(a: seq<Proc>, b: seq<Proc>)
    ensures SelectExcel(a + b) == SelectExcel(a) + SelectExcel(b)
    decreases |a|
  {
    if |a| == 0 {
      assert a + b == b;
    } else {
      SelectExcelIsFilter(a[1..], b);
      assert (a + b)[0] == a[0];
      assert (a + b)[1..] == a[1..] + b;
    }
  }

  /** Python's `xs[start:]`: a negative start counts from the end, and the
      start is clamped to the list. */
  function SliceFrom<T>(xs: seq<T>, start: int): (r: seq<T>)
    ensures 0 <= start <= |xs| ==> r == xs[start..]
    ensures start < 0 ==> r == xs[if |xs| + start < 0 then 0 else |xs| + start..]
    ensures start > |xs| ==> r == []
  {
    if start < 0 then (if |xs| + start < 0 then xs else xs[|xs| + start..])
    else if start > |xs| then []
    else xs[start..]
  }

  /** The integer value of the cap, when it is one: Python compares and
      slices with an int or a bool. A float passes the comparison but not
      the slice, and anything else fails the comparison; either failure is
      caught and logged, so nothing is killed. */
  function CapIndex(cap: Json): (r: Option<int>)
    ensures r.Some? <==> cap.JInt? || cap.JBool?
    ensures cap.JInt? ==> r == Some(cap.i)
    ensures cap.JBool? ==> r == Some(if cap.b then 1 else 0)
  {
    match cap
    case JInt(n) => Some(n)
    case JBool(b) => Some(if b then 1 else 0)
    case _ => None
  }

  /** The processes the cleanup tries to kill. */
  function Victims(procs: seq<Proc>, cap: Json): (r: seq<Proc>)
    // the victims are a tail of the Excel processes, in enumeration order
    ensures |r| <= |SelectExcel(procs)| && r == SelectExcel(procs)[|SelectExcel(procs)| - |r|..]
    // and there are some only when an integral cap is exceeded
    ensures r != [] ==> CapIndex(cap).Some? && |SelectExcel(procs)| > CapIndex(cap).value
  {
    var excel := SelectExcel(procs);
    match CapIndex(cap)
    case Some(n) => if |excel| > n then SliceFrom(excel, n) else []
    case None => []
  }

  /** What a cleanup did: the kills it tried, in order, and the ones that
      succeeded. A failed kill is swallowed and the loop goes on. */
  datatype KillReport = KillReport(attempted: seq<Proc>, killed: seq<Proc>)

  function KeepKilled(ps: seq<Proc>, kill: Proc -> bool): (r: seq<Proc>)
    ensures forall p :: p in r <==> p in ps && kill(p)
  {
    if |ps| == 0 then []
    else if kill(ps[0]) then [ps[0]] + KeepKilled(ps[1..], kill)
    else KeepKilled(ps[1..], kill)
  }

  /** One cleanup run with the configured cap; `kill` says whether killing a
      process succeeds. */
  function Cleanup(cfg: Config.Namespaces, procs: seq<Proc>, kill: Proc -> bool): (r: KillReport)
    ensures r.attempted == Victims(procs, Config.Read(cfg, Config.MaxExcelProcesses))
    ensures forall p :: p in r.killed <==> p in r.attempted && kill(p)
  {
    var attempted := Victims(procs, Config.Read(cfg, Config.MaxExcelProcesses));
    KillReport(attempted, KeepKilled(attempted, kill))
  }

  /** Only Excel processes that were running are ever attempted. */
  lemma VictimsAreExcel(procs: seq<Proc>, cap: Json)
    ensures forall p :: p in Victims(procs, cap) ==> p in procs && IsExcel(p)
  {
    var excel := SelectExcel(procs);
    forall p | p in Victims(procs, cap) ensures p in excel {
      var n := CapIndex(cap).value;
      var start := if n < 0 then (if |excel| + n < 0 then 0 else |excel| + n) else n;
      assert Victims(procs, cap) == excel[start..];
    }
  }

  /** Nothing is killed unless the Excel count exceeds an integral cap. */
  lemma NoKillsWithinCap(procs: seq<Proc>, cap: Json)
    requires CapIndex(cap).None? || |SelectExcel(procs)| <= CapIndex(cap).value
    ensures Victims(procs, cap) == []
  {
  }

  /** Over a non-negative cap, exactly the Excel processes from position
      `cap` on are attempted, which is the excess over the cap, and the
      first `cap` survive. */
  lemma KillsExactlyTheExcess(procs: seq<Proc>, cap: Json)
    requires CapIndex(cap).Some? && 0 <= CapIndex(cap).value < |SelectExcel(procs)|
    ensures var n := CapIndex(cap).value;
      && Victims(procs, cap) == SelectExcel(procs)[n..]
      && |Victims(procs, cap)| == |SelectExcel(procs)| - n
      && SelectExcel(procs) == SelectExcel(procs)[..n] + Victims(procs, cap)
  {
    var excel := SelectExcel(procs);
    var n := CapIndex(cap).value;
    assert Victims(procs, cap) == excel[n..];
    assert excel == excel[..n] + excel[n..];
  }

  /** A negative cap slices from the end: the last `-cap` Excel processes
      (or all of them) are attempted, so more processes than "the cap" stay
      alive whenever the count is above `-cap`. */
  lemma NegativeCapCountsFromTheEnd(procs: seq<Proc>, cap: int)
    requires cap < 0 && |SelectExcel(procs)| > 0
    ensures |Victims(procs, JInt(cap))| == if |SelectExcel(procs)| < -cap then |SelectExcel(procs)| else -cap
  {
  }

  /** Whether kills succeed changes what was killed, never what was tried. */
  lemma AttemptsIgnoreKillFailures(cfg: Config.Namespaces, procs: seq<Proc>, k1: Proc -> bool, k2: Proc -> bool)
    ensures Cleanup(cfg, procs, k1).attempted == Cleanup(cfg, procs, k2).attempted
  {
  }
}

=== FILE: py_values.dfy ===
/** The Python values the converter handles: configuration documents (parsed
    JSON), the exceptions its handlers tell apart, and the usual Option and
    Result wrappers. */
module PyValues {

  datatype Option<+T> = None | Some(value: T)

  /** A parsed JSON document. Objects are unordered: nothing in the modelled
      code observes the order of an object's keys. */
  datatype Json =
    | JNull
    | JBool(b: bool)
    | JInt(i: int)
    | JReal(r: real)
    | JStr(s: string)
    | JArr(items: seq<Json>)
    | JObj(fields: map<string, Json>)

  /** Python truthiness of a JSON value, as used by `if value:`. */
  predicate Truthy(j: Json)
  {
    match j
    case JNull => false
    case JBool(b) => b
    case JInt(i) => i != 0
    case JReal(r) => r != 0.0
    case JStr(s) => |s| > 0
    case JArr(items) => |items| > 0
    case JObj(fields) => |fields| > 0
  }

  /** The exception classes the converter's handlers distinguish. Every other
      exception (COM errors, TypeError, ValueError, ...) is `OtherError`. */
  datatype ExcKind = FileNotFoundError | PermissionError | OtherError

  /** A raised exception: its class and the text `str(e)` gives. */
  datatype Exc = Exc(kind: ExcKind, msg: string)

  /** The outcome of a step that either yields a value or raises. */
  datatype Result<+T> = Ok(value: T) | Err(exc: Exc)

  /** The name `type(value).__name__` gives for a JSON value in Python. */
  function TypeName(j: Json): string
  {
    match j
    case JNull => "NoneType"
    case JBool(_) => "bool"
    case JInt(_) => "int"
    case JReal(_) => "float"
    case JStr(_) => "str"
    case JArr(_) => "list"
    case JObj(_) => "dict"
  }

  /** The TypeError `range(v)` or `time.sleep(v)` raises for a value that is
      not a number it accepts. */
  function NotAnInteger(j: Json): Exc
  {
    Exc(OtherError, "'" + TypeName(j) + "' object cannot be interpreted as an integer")
  }
}

=== FILE: results.dfy ===
/** The results dictionary of a batch and its summary. Keys are the batch
    entries as given; like a Python dict it keeps insertion order, treats
    equal numbers of different types (1, 1.0, True) as one key, and rejects
    lists and dicts as unhashable. Values are the returned PDF path or an
    "ERROR: ..." text. */
module Results {
  import opened PyValues
  import Text

  /** What a key is compared by. */
  datatype Key = KStr(s: string) | KNum(x: real) | KNull

  /** The comparison identity of a JSON value, or None when Python cannot
      hash it. */
  function KeyOf(j: Json): (k: Option<Key>)
    ensures k.None? <==> j.JArr? || j.JObj?
  {
    match j
    case JNull => Some(KNull)
    case JBool(b) => Some(KNum(if b then 1.0 else 0.0))
    case JInt(n) => Some(KNum(n as real))
    case JReal(x) => Some(KNum(x))
    case JStr(s) => Some(KStr(s))
    case JArr(_) => None
    case JObj(_) => None
  }

  /** The TypeError storing under an unhashable key raises. */
  function Unhashable(j: Json): Exc
  {
    Exc(OtherError, "unhashable type: '" + TypeName(j) + "'")
  }

  datatype Entry = Entry(key: Json, value: string)

  /** Entries in insertion order. */
  type Dict = seq<Entry>

  /** Whether an entry's key compares equal to `k`. */
  predicate HasKey(e: Entry, k: Key)
  {
    KeyOf(e.key) == Some(k)
  }

  /** The position holding key `k`, or -1. */
  function Find(d: Dict, k: Key): (i: int)
    ensures -1 <= i < |d|
    ensures i >= 0 ==> HasKey(d[i], k)
    ensures i == -1 <==> forall j :: 0 <= j < |d| ==> !HasKey(d[j], k)
  {
    if |d| == 0 then -1
    else if HasKey(d[|d| - 1], k) then |d| - 1
    else Find(d[..|d| - 1], k)
  }

  /** `d[key] = value`: an existing key keeps its place (and the key object
      first stored) and takes the new value; a new key goes last. */
  function Put(d: Dict, key: Json, value: string): (r: Dict)
    requires KeyOf(key).Some?
    // the dictionary grows only when the key is new
    ensures |r| == |d| + (if Find(d, KeyOf(key).value) == -1 then 1 else 0)
  {
    var k := KeyOf(key).value;
    var i := Find(d, k);
    if i == -1 then
      assert HasKey((d + [Entry(key, value)])[|d|], k);
      d + [Entry(key, value)]
    else
      d[i := Entry(d[i].key, value)]
  }

  /** Storing a value makes it the one looked up under its key. */
  lemma PutThenLookup(d: Dict, key: Json, value: string)
    requires KeyOf(key).Some?
    ensures Lookup(Put(d, key, value), KeyOf(key).value) == Some(value)
  {
    var k := KeyOf(key).value;
    var i := Find(d, k);
    if i >= 0 {
      FindUpdated(d, k, Entry(d[i].key, value));
    } else {
      assert HasKey((d + [Entry(key, value)])[|d|], k);
    }
  }

  /** Storing keeps every stored key at its position and leaves the entries
      under other keys untouched: the insertion order is never disturbed. */
  lemma PutKeepsOrder(d: Dict, key: Json, value: string)
    requires KeyOf(key).Some?
    ensures var r := Put(d, key, value);
      && (forall j :: 0 <= j < |d| ==> r[j].key == d[j].key)
      && (forall j :: 0 <= j < |d| && !HasKey(d[j], KeyOf(key).value) ==> r[j] == d[j])
      && (Find(d, KeyOf(key).value) == -1 ==> r[|d|] == Entry(key, value))
  {
  }

  /** Replacing the entry `Find` chose by another entry with the same key
      leaves `Find`'s answer where it was. */
  lemma FindUpdated(d: Dict, k: Key, e: Entry)
    requires Find(d, k) >= 0 && HasKey(e, k)
    ensures Find(d[Find(d, k) := e], k) == Find(d, k)
  {
    FindSameKeys(d[Find(d, k) := e], d, k);
  }

  /** Find only looks at which entries hold the key. */
  lemma {:induction false} FindSameKeys(a: Dict, b: Dict, k: Key)
    requires |a| == |b|
    requires forall j :: 0 <= j < |a| ==> (HasKey(a[j], k) <==> HasKey(b[j], k))
    ensures Find(a, k) == Find(b, k)
    decreases |a|
  {
    if |a| > 0 {
      var n := |a| - 1;
      if !HasKey(a[n], k) {
        FindSameKeys(a[..n], b[..n], k);
      }
    }
  }

  /** `d.get(key)` */
  function Lookup(d: Dict, k: Key): (v: Option<string>)
    ensures v.Some? <==> Find(d, k) >= 0
  {
    var i := Find(d, k);
    if i == -1 then None else Some(d[i].value)
  }

  /** No key occurs twice: what every dictionary satisfies. */
  predicate UniqueKeys(d: Dict)
  {
    forall i, j :: 0 <= i < j < |d| ==> KeyOf(d[i].key) != KeyOf(d[j].key)
  }

  /** Storing keeps keys unique. */
  lemma PutKeepsKeysUnique(d: Dict, key: Json, value: string)
    requires KeyOf(key).Some? && UniqueKeys(d)
    ensures UniqueKeys(Put(d, key, value))
  {
    PutKeepsOrder(d, key, value);
  }

  /** Storing under one key leaves the value under every other key alone. */
  lemma PutLeavesOtherKeys(d: Dict, key: Json, value: string, other: Key)
    requires KeyOf(key).Some? && UniqueKeys(d) && other != KeyOf(key).value
    ensures Lookup(Put(d, key, value), other) == Lookup(d, other)
  {
    var r := Put(d, key, value);
    PutKeepsKeysUnique(d, key, value);
    PutKeepsOrder(d, key, value);
    FindIsUnique(r, other);
    FindIsUnique(d, other);
  }

  /** With unique keys, a key is found at the one entry holding it. */
  lemma FindIsUnique(d: Dict, k: Key)
    requires UniqueKeys(d)
    ensures forall j :: 0 <= j < |d| && HasKey(d[j], k) ==> Find(d, k) == j
  {
  }

  /** Whether a stored value counts as a failure in the summary. */
  predicate IsError(v: string)
  {
    Text.StartsWith(v, "ERROR")
  }

  /** How many values do not start with "ERROR". */
  function CountOk(d: Dict): (n: nat)
    ensures n <= |d|
  {
    if |d| == 0 then 0
    else CountOk(d[..|d| - 1]) + (if IsError(d[|d| - 1].value) then 0 else 1)
  }

  /** How many values start with "ERROR". */
  function CountErrors(d: Dict): nat
  {
    if |d| == 0 then 0
    else CountErrors(d[..|d| - 1]) + (if IsError(d[|d| - 1].value) then 1 else 0)
  }

  /** The three numbers logged: total files, successful, with errors. */
  datatype Summary = Summary(total: nat, successful: nat, failed: int)

  /** The summary of a results dictionary: every entry is counted once, as
      a success or as a failure, and the failures are exactly the "ERROR"
      values, so the failure count is never negative. */
  function Summarize(d: Dict): (s: Summary)
    ensures s.total == |d|
    ensures s.successful + s.failed == s.total
    ensures s.failed == CountErrors(d) >= 0
  {
    EveryValueCountedOnce(d);
    Summary(|d|, CountOk(d), |d| - CountOk(d))
  }

  /** Each value is either a success or an "ERROR", never both. */
  lemma {:induction false} EveryValueCountedOnce(d: Dict)
    ensures CountOk(d) + CountErrors(d) == |d|
  {
    if |d| > 0 {
      EveryValueCountedOnce(d[..|d| - 1]);
    }
  }

  /** Counting over a dictionary extended at the end. */
  lemma {:induction false} CountErrorsAppend(d: Dict, e: seq<Entry>)
    ensures CountErrors(d + e) == CountErrors(d) + CountErrors(e)
    decreases |e|
  {
    if |e| > 0 {
      var init := e[..|e| - 1];
      assert (d + e)[..|d + e| - 1] == d + init;
      CountErrorsAppend(d, init);
    } else {
      assert d + e == d;
    }
  }
}

=== FILE: session.dfy ===
/** The converter's two flags, `self.excel` (is there an Excel application
    object) and `self.initialized`, and the two operations that change them:
    `initialize_excel` and `close` (which `__exit__` calls). The COM calls
    are inputs: how far each operation gets before something raises. */
module Session {
  import opened PyValues
  import Config
  import ProcessCleanup

  datatype Session = Session(hasExcel: bool, initialized: bool)

  /** A converter as constructed: no application object, not initialised. */
  const Fresh := Session(false, false)

  /** Whether `close` will do anything. */
  predicate Live(s: Session)
  {
    s.hasExcel && s.initialized
  }

  /** How `initialize_excel` goes after the optional cleanup: the install
      probe fails, `CoInitialize` or `EnsureDispatch` raises before the
      application object is stored, one of the property assignments raises
      after it is stored, or everything succeeds. */
  datatype InitOutcome = NotInstalled | DispatchRaises(e: Exc) | SetupRaises(e: Exc) | Ready

  const NotInstalledMessage := "Microsoft Excel no está instalado o no es accesible"

  /** One `initialize_excel` call: the cleanup it ran, the flags after it,
      and the exception it re-raised, if any. */
  datatype InitRun = InitRun(cleanup: Option<ProcessCleanup.KillReport>, session: Session, raised: Option<Exc>)

  function Initialize(cfg: Config.Namespaces, s: Session, o: InitOutcome, procs: seq<ProcessCleanup.Proc>,
                      kill: ProcessCleanup.Proc -> bool): (r: InitRun)
    ensures r.cleanup.Some? <==> Truthy(Config.Read(cfg, Config.KillOrphaned))
    ensures r.cleanup.Some? ==> r.cleanup.value == ProcessCleanup.Cleanup(cfg, procs, kill)
    ensures r.raised.None? <==> o == Ready
    ensures r.raised.None? ==> r.session == Session(true, true)
    ensures r.raised.Some? ==> r.session.initialized == s.initialized
    ensures r.session.hasExcel <==> s.hasExcel || o.SetupRaises? || o == Ready
    ensures o == NotInstalled ==> r.raised == Some(Exc(OtherError, NotInstalledMessage))
    ensures o.DispatchRaises? || o.SetupRaises? ==> r.raised == Some(o.e)
  {
    var cleanup := if Truthy(Config.Read(cfg, Config.KillOrphaned)) then Some(ProcessCleanup.Cleanup(cfg, procs, kill)) else None;
    match o
    case NotInstalled => InitRun(cleanup, s, Some(Exc(OtherError, NotInstalledMessage)))
    case DispatchRaises(e) => InitRun(cleanup, s, Some(e))
    case SetupRaises(e) => InitRun(cleanup, s.(hasExcel := true), Some(e))
    case Ready => InitRun(cleanup, Session(true, true), None)
  }

  /** How `close` goes once it starts: setting `ScreenUpdating` or `Quit`
      raises (nothing changed yet), `CoUninitialize` raises (the application
      object is already dropped), or everything succeeds. Each failure is
      logged and swallowed. */
  datatype CloseOutcome = ScreenUpdatingRaises | QuitRaises | UninitializeRaises | Closes

  function Close(s: Session, o: CloseOutcome): (r: Session)
    ensures !Live(s) ==> r == s
    ensures Live(s) && o == Closes ==> r == Fresh
    // `CoUninitialize` raising leaves the object dropped but the flag set
    ensures Live(s) && o == UninitializeRaises ==> r == Session(false, true)
    // raising before `self.excel = None` changes nothing
    ensures Live(s) && (o == ScreenUpdatingRaises || o == QuitRaises) ==> r == s
    ensures !Live(r) <==> !Live(s) || o == Closes || o == UninitializeRaises
    ensures r.initialized ==> s.initialized
    ensures r.hasExcel ==> s.hasExcel
  {
    if !Live(s) then s
    else
      match o
      case ScreenUpdatingRaises => s
      case QuitRaises => s
      case UninitializeRaises => s.(hasExcel := false)
      case Closes => Fresh
  }

  /** A close that got as far as dropping the application object cannot be
      repeated: any later close leaves the flags alone. */
  lemma SecondCloseDoesNothing(s: Session, first: CloseOutcome, second: CloseOutcome)
    requires first == Closes || first == UninitializeRaises
    ensures Close(Close(s, first), second) == Close(s, first)
  {
  }

  /** A successful initialisation followed by a successful close is back
      where a fresh converter starts, whatever came before. */
  lemma InitializeThenCloseIsFresh(cfg: Config.Namespaces, s: Session, procs: seq<ProcessCleanup.Proc>,
                                   kill: ProcessCleanup.Proc -> bool)
    ensures Close(Initialize(cfg, s, Ready, procs, kill).session, Closes) == Fresh
  {
  }

  /** When setting up the new application object fails, the object is kept
      but the converter is not initialised, so `close` leaves it running. */
  lemma FailedSetupIsNotClosed(cfg: Config.Namespaces, e: Exc, procs: seq<ProcessCleanup.Proc>,
                               kill: ProcessCleanup.Proc -> bool, o: CloseOutcome)
    ensures var after := Initialize(cfg, Fresh, SetupRaises(e), procs, kill).session;
      after.hasExcel && Close(after, o) == after
  {
  }
}

=== FILE: text.dfy ===
/** The string operations the converter relies on: lower-casing, substring
    and prefix tests, and `str.split` on a single separator character. */
module Text {

  /** ASCII lower-casing of one character. Python's `str.lower` is Unicode
      aware, but the only non-ASCII characters it maps onto ASCII letters are
      U+212A (to 'k') and U+0130 (to 'i' followed by U+0307), and neither can
      complete any of the patterns it is compared with here ("excel", "timeout",
      "landscape"). */
  function LowerChar(c: char): char
  {
    if 'A' <= c <= 'Z' then (c as int + 32) as char else c
  }

  function Lower(s: string): string
  {
    seq(|s|, i requires 0 <= i < |s| => LowerChar(s[i]))
  }

  predicate OccursAt(s: string, pat: string, i: int)
  {
    0 <= i && i + |pat| <= |s| && s[i..i + |pat|] == pat
  }

  /** Python's `pat in s` on strings. */
  predicate Contains(s: string, pat: string)
  {
    exists i :: 0 <= i <= |s| - |pat| && OccursAt(s, pat, i)
  }

  /** Python's `s.startswith(p)`. */
  predicate StartsWith(s: string, p: string)
  {
    |p| <= |s| && s[..|p|] == p
  }

  /** Python's `s.split(sep)` for a one-character separator: the pieces
      between separators, empty pieces included, so there is always one
      more piece than there are separators. */
  function Split(s: string, sep: char): (parts: seq<string>)
    ensures |parts| >= 1
    ensures forall i :: 0 <= i < |parts| ==> sep !in parts[i]
  {
    if |s| == 0 then [""]
    else
      var rest := Split(s[1..], sep);
      if s[0] == sep then [""] + rest
      else [[s[0]] + rest[0]] + rest[1..]
  }

  /** Python's `sep.join(parts)`. */
  function Join(parts: seq<string>, sep: char): string
    decreases |parts|
  {
    if |parts| == 0 then ""
    else if |parts| == 1 then parts[0]
    else parts[0] + [sep] + Join(parts[1..], sep)
  }

  /** Splitting and joining again gives back the original text. */
  lemma {:induction false} JoinSplit(s: string, sep: char)
    ensures Join(Split(s, sep), sep) == s
    decreases |s|
  {
    if |s| > 0 {
      JoinSplit(s[1..], sep);
      var rest := Split(s[1..], sep);
      if s[0] == sep {
        assert Split(s, sep) == [""] + rest;
        assert s == [sep] + s[1..];
      } else {
        var parts := Split(s, sep);
        assert parts == [[s[0]] + rest[0]] + rest[1..];
        if |rest| == 1 {
          assert s == [s[0]] + rest[0];
        } else {
          assert Join(rest, sep) == rest[0] + [sep] + Join(rest[1..], sep);
          assert parts[1..] == rest[1..];
          assert s == [s[0]] + s[1..];
        }
      }
    }
  }

  /** Joining separator-free pieces and splitting again gives back the pieces. */
  lemma {:induction false} SplitJoin(parts: seq<string>, sep: char)
    requires |parts| >= 1
    requires forall i :: 0 <= i < |parts| ==> sep !in parts[i]
    ensures Split(Join(parts, sep), sep) == parts
    decreases |parts|, |parts[0]|
  {
    var head := parts[0];
    if |head| > 0 {
      var tail := [head[1..]] + parts[1..];
      assert sep !in head[1..] by {
        forall c | c in head[1..] ensures c != sep {
          assert c in head;
        }
      }
      SplitJoin(tail, sep);
      assert Join(parts, sep) == [head[0]] + Join(tail, sep) by {
        if |parts| == 1 {
          assert head == [head[0]] + head[1..];
        } else {
          assert tail[1..] == parts[1..];
          assert head == [head[0]] + head[1..];
        }
      }
      var j := Join(parts, sep);
      assert j[1..] == Join(tail, sep);
      assert j[0] == head[0] && head[0] != sep;
      assert tail[0] == head[1..] && tail[1..] == parts[1..];
      assert [head[0]] + tail[0] == head;
      assert parts == [head] + parts[1..];
    } else if |parts| > 1 {
      SplitJoin(parts[1..], sep);
      var j := Join(parts, sep);
      assert j == [sep] + Join(parts[1..], sep);
      assert j[1..] == Join(parts[1..], sep);
      assert parts == [""] + parts[1..];
    }
  }

  /** Text without the separator splits into itself alone. */
  lemma SplitNoSeparator(s: string, sep: char)
    requires sep !in s
    ensures Split(s, sep) == [s]
  {
    SplitJoin([s], sep);
  }

  /** Splitting `a + sep + b` splits `a` and `b` separately. */
  lemma SplitAround(a: string, sep: char, b: string)
    ensures Split(a + [sep] + b, sep) == Split(a, sep) + Split(b, sep)
  {
    var pa := Split(a, sep);
    var pb := Split(b, sep);
    JoinSplit(a, sep);
    JoinSplit(b, sep);
    JoinAppend(pa, pb, sep);
    SplitJoin(pa + pb, sep);
  }

  lemma {:induction false} JoinAppend(p: seq<string>, q: seq<string>, sep: char)
    requires |p| >= 1 && |q| >= 1
    ensures Join(p + q, sep) == Join(p, sep) + [sep] + Join(q, sep)
    decreases |p|
  {
    if |p| > 1 {
      JoinAppend(p[1..], q, sep);
      assert (p + q)[1..] == p[1..] + q;
    } else {
      assert (p + q)[1..] == q;
    }
  }

  /** No 't' is directly followed by an 'i': then "timeout" cannot occur. */
  predicate NoTi(s: string)
  {
    forall i :: 0 <= i < |s| - 1 ==> !(s[i] == 't' && s[i + 1] == 'i')
  }

  lemma NoTiNoTimeout(s: string)
    requires NoTi(s)
    ensures !Contains(s, "timeout")
  {
    forall i | 0 <= i <= |s| - 7 ensures !OccursAt(s, "timeout", i) {
      var w := s[i..i + 7];
      assert w[0] == s[i] && w[1] == s[i + 1];
    }
  }
}
